=== FILE: README.md ===
# DiaComp glucose alerting core, modelled in Dafny

DiaComp polls a LibreLinkUp continuous glucose monitor every few minutes,
compares the latest reading with four configured thresholds, and sends
rate-limited SMS alerts. Each alert condition has its own cooldown. A normal
reading clears every cooldown. Alongside the monitor sit the statistics that
the analysis menu prints over the logged readings.

This project models:

- `analysis.dfy` (module `Analysis`): the five threshold predicates and
  `retrieve_value`, with their KeyError and ValueError paths.
- `monitor.dfy` (module `Monitor`): the registry of last-alert times and one
  run of `monitor_blood_sugar` as a pure `Tick`. It also models the SMS text
  built by `send_alert`.
- `monitor_proofs.dfy` (module `MonitorProofs`): a reference description of
  which conditions fire. It proves that `Tick` matches it, then proves
  hysteresis, reset, double firing, failure and message round-trip
  properties.
- `table.dfy`, `data_analysis.dfy`, `summaries.dfy` (modules `Table`,
  `DataAnalysis`, `Summaries`): the hour-to-period map, high/low counts, time
  in range, averages, and the per-period and per-day groupings. The
  groupings are proved to partition the table.
- `time_filter.dfy` (module `TimeFilter`): the look-back menu and the
  inclusive time-window filter.
- `wrappers.dfy`: `Option` and `Result`.

Modelling choices:

- Time is integer minutes. One tick uses a single `now`. `monitor_blood_sugar`
  calls `datetime.now()` once for the comparison and again for the stamp; the
  model merges the two.
- `get_time_filter` (src/utils.py:17) and `filter_blood_sugar_data`
  (src/utils.py:39) each call `datetime.now()`. `TimeFilter.GetTimeFilter` and
  `TimeFilter.FilterBloodSugarData` use one `now` for both the start and the
  end of the window.
- Thresholds are a `Thresholds` record of `real`s, passed as a parameter.
  They are not read from the environment.
- The measurement is a map from field names to `Num(real)` or `Text(string)`.
  Python's `str()` of a field, used inside the SMS text, is a parameter
  `show`.
- The login, the patient lookup and the CGM request are replaced by an input
  `Fetch`, which is either the measurement or a failure.
- `log_data` is replaced by an input `Store`. With `StoreUp` the call returns
  and the record is appended to the tick's log output; an SQLite error inside
  `execute_query` is printed and swallowed, which looks the same from the
  tick. `StoreDown` stands for `setup_connection` returning `None`. Then
  `con.cursor()` raises an `AttributeError` that `execute_query` does not
  catch, and the tick ends inside the `try`.
- The interactive prompt of `get_time_filter` reads from a finite sequence of
  answers. Running out of answers is the `EOFError` that
  `filter_blood_sugar_data` turns into `None`.

Facts about the code that a reader might not expect, all modelled as written:

- Nothing checks the ordering of the thresholds. The properties that need it
  take `Thresholds.Ordered()` as a precondition.
  `Analysis.UnorderedExtremeLowCanBeNormal` shows a reading that is extremely
  low and normal at once when the thresholds are out of order.
- There is no single most-severe classification. The four conditions are
  checked independently, so a reading can fire both "EXTREMELY low" and
  "low".
- A reading is logged only when an alert fires or when the reading is
  normal. A suppressed abnormal reading writes nothing.
- The SMS says "low" and "high", but the logged `alert_type` is "Low" and
  "High".

Some behaviours follow from the code as written and are proved here:

- With a low reading every minute, the low alert goes out every 16 minutes,
  not every 15, because the cooldown comparison is strict
  (`MonitorProofs.PersistentLowPeriod`). Only the one-minute schedule is
  proved. With the default 5-minute interval of src/main.py:139, the same
  strict comparison spaces the alerts 20 minutes apart.
- When the store cannot be opened, the SMS of the first condition that fires
  is sent, but its stamp is never written and the later blocks never run
  (`MonitorProofs.AlertsStoreDownSendsFirst`). So while an abnormal reading
  keeps arriving, on any schedule, each tick re-sends the SMS of the first
  condition that fires at that minute, judged against the unchanged
  registry, and never stamps or logs it
  (`MonitorProofs.StoreDownRepeatsFirstAlert`). Which condition that is can
  change from tick to tick as cooldowns run out. From a registry with no
  stamps for the holding conditions it is the same SMS every time; with
  ordered thresholds, a low but not extremely low reading and no Low stamp,
  that is the low SMS (`MonitorProofs.StoreDownRepeatsLowAlert`).
- A normal reading clears the registry before `log_data` runs, so the reset
  survives a failing store (`MonitorProofs.NormalResetsDespiteStoreDown`).

## Model

| member | source | states |
|---|---|---|
| Analysis.RetrieveValue | src/analysis.py:9-20 | the value under the key when present; otherwise a KeyError whose message names the key |
| Analysis.Evaluate | src/analysis.py:22-97 | each predicate succeeds exactly when "Value" is present and numeric, and then answers its comparison; a missing key raises KeyError, and a non-numeric value raises that predicate's own ValueError |
| Analysis.EvaluateDependsOnlyOnValue | src/analysis.py:22-97 | the predicates are pure: two measurements with the same "Value" get the same answers under the same thresholds |
| Analysis.NormalIffNeitherLowNorHigh | src/analysis.py:31-95 | with the inclusive normal bounds and the strict low/high bounds, normal holds exactly when neither low nor high holds |
| Analysis.ThresholdsAreNormal | src/analysis.py:95 | a reading equal to the low or the high threshold is normal and is neither low nor high |
| Analysis.ExtremeImpliesPlain | src/analysis.py:31-80 | if extremely-low ≤ low, extremely low implies low; if extremely-high ≥ high, extremely high implies high |
| Analysis.UnorderedExtremeLowCanBeNormal | src/analysis.py:63-95 | without the threshold ordering, one reading can be extremely low and normal at the same time |
| Monitor.ParseReading | src/main.py:60-69 | a reading is obtained exactly when "Timestamp" and "Value" are present and "Value" is a number; a missing "Timestamp" is reported as that KeyError; otherwise a missing "Value" is reported as the KeyError for "Value", and a text "Value" as the ValueError of the extremely-low test, the first predicate called |
| Monitor.Alerts | src/main.py:68-119 | with a working store there is one log record per SMS and no error; with a failing store nothing is logged or stamped, and an SMS goes out exactly when some condition fires; that SMS is for a firing condition and carries the reading's timestamp and value; conditions not visited keep their stamps |
| Monitor.Respond | src/main.py:68-126 | with a working store there is no error and one log record per SMS, plus a final plain "Reading" record and a cleared registry when the reading is normal; with a failing store nothing is logged, at most one SMS goes out, and it goes out exactly when some condition fires and is that condition's; the tick always ends with the store error unless nothing fired and the reading is abnormal, and the registry is cleared exactly when the reading is normal and no SMS went out |
| Monitor.Tick | src/main.py:50-129 | a failed fetch or a malformed measurement ends the tick with its error, the registry untouched, and no SMS or log record |
| MonitorProofs.AlertsMatchReference | src/main.py:68-119 | the sequential blocks over distinct conditions send one SMS and one "alert" record per firing condition, in order, judged against the registry at the start; exactly those conditions are stamped with `now` and all other slots are kept |
| MonitorProofs.TickMatchesReference | src/main.py:68-126 | with a working store, a full tick sends the SMS and records of the firing conditions in the order ExtremeLow, ExtremeHigh, Low, High; a normal reading adds one plain "Reading" record; each slot ends as None after a normal reading, `now` if its condition fired, and unchanged otherwise |
| MonitorProofs.FiresIffDueAndHolds | src/main.py:69-110 | with a working store, a condition's SMS is sent iff its test holds and it has never fired or `now` is strictly greater than the last firing time plus its cooldown (7, 30, 15, 30 minutes) |
| MonitorProofs.SuppressedEmitsNothing | src/main.py:69-119 | with a working store, an abnormal reading whose conditions are all cooling down sends no SMS, writes no record and leaves the registry unchanged |
| MonitorProofs.NormalResets | src/main.py:121-126 | with a working store and ordered thresholds, a normal reading sends nothing, clears all four stamps and writes one record with log type "Reading" and no alert type |
| MonitorProofs.NormalResetsDespiteStoreDown | src/main.py:121-129 | with ordered thresholds and a failing store, a normal reading sends nothing, writes nothing, ends with the store error, and still leaves the registry empty |
| MonitorProofs.EmptyRegistryFiresAllThatHold | src/main.py:70 | on a fresh or just-reset registry every condition whose test holds fires |
| MonitorProofs.ResetThenRefire | src/main.py:96-126 | with a working store, after a normal reading, the next low reading sends the low alert at once, whatever the times involved |
| MonitorProofs.ExtremeLowAlsoFiresLow | src/main.py:69-106 | with a working store, on an empty registry with ordered thresholds, a reading below the extremely-low threshold sends "EXTREMELY low" and then "low", and stamps both |
| MonitorProofs.LowOnlyTick | src/main.py:96-106 | with a working store and ordered thresholds, a low but not extremely low reading either sends the single low SMS, logs it and stamps Low, or, while cooling down, does nothing |
| MonitorProofs.LowSlotTick | src/main.py:69-106 | with a working store, for any low reading, extremely low included, the low SMS is sent exactly when Low is due, and the Low slot is stamped with `now` exactly then and otherwise kept |
| MonitorProofs.PersistentLowPeriod | src/main.py:96-106 | with a working store, from any registry, with the same low reading (extremely low included) every minute, the low alert fires exactly at its first due minute and every 16 minutes after, because the 15-minute comparison is strict |
| MonitorProofs.LowEveryMinuteFor20Minutes | src/main.py:96-106 | with a working store, any low reading, extremely low included, at each minute from 0 up to at most 20 on a fresh registry fires the low alert at minutes 0 and 16 and at no other minute |
| MonitorProofs.FailedTickKeepsRegistry | src/main.py:50-129 | a fetch failure or a missing or non-numeric field leaves the registry exactly as it was and emits nothing |
| MonitorProofs.AlertsStoreDownSendsFirst | src/main.py:68-119 | when `log_data` raises, exactly the SMS of the first condition in block order that fires goes out and the tick ends with the store error; if none fires, nothing is sent and there is no error |
| MonitorProofs.TickStoreDownMatchesReference | src/main.py:68-129 | with a failing store, a tick that fires sends only the first firing condition's SMS, keeps the registry and ends with the store error; one that fires nothing sends nothing, and then a normal reading clears the registry and ends with the store error while an abnormal one leaves everything as it was, without error |
| MonitorProofs.StoreDownKeepsRegistry | src/main.py:68-129 | with a failing store, an abnormal reading never moves the registry |
| MonitorProofs.StoreDownRepeatsFirstAlert | src/main.py:68-129 | with a failing store and the same abnormal measurement at every tick of any schedule, each tick is judged against the starting registry and re-sends the SMS of the first condition firing at its minute, never stamping or logging it |
| MonitorProofs.StoreDownRepeatsLowAlert | src/main.py:96-106 | with a failing store, ordered thresholds, a low but not extremely low reading every minute and no Low stamp yet, the low SMS goes out on every tick and is never stamped or logged |
| Monitor.SmsText | src/main.py:30-34 | the SMS opens with "Time: " followed by the rendered timestamp; its middle line reads "Alert! ", the user, "'s blood glucose is ", the condition's wording, "! Glucose Reading: " and the rendered value, between line breaks; it closes with "Suggested Action: " followed by the condition's suggested action |
| MonitorProofs.ConditionRoundTrip | src/main.py:19-34 | the suggested action ending the SMS text identifies the alert's condition, for every user, timestamp, value and rendering |
| DataAnalysis.CategorizeTimeOfDay | src/data_analysis.py:86-102 | Morning iff 6 ≤ h < 12, Afternoon iff 12 ≤ h < 18, Evening iff 18 ≤ h < 24, Night for every other hour |
| DataAnalysis.NightIsBeforeSix | src/data_analysis.py:94-102 | on hours 0 to 23, Night is exactly the hours before 6 |
| DataAnalysis.PeriodIgnoresDate | src/data_analysis.py:94-102 | the same clock time any number of days later falls in the same period and on the date that many days later |
| DataAnalysis.HighLowCount | src/data_analysis.py:48-63 | the counts are the numbers of rows whose alert type is exactly "High" and exactly "Low", and together they are at most the number of rows |
| DataAnalysis.HighsAndLowsBounded | src/data_analysis.py:54-63 | highs plus lows never exceed the number of rows |
| DataAnalysis.OnlyPlainAlertsCounted | src/data_analysis.py:57-61 | of the alert types the monitor logs, only the plain low alert counts as a low and only the plain high alert counts as a high |
| DataAnalysis.InRangeCount | src/data_analysis.py:76-78 | the in-range count is at most the row count; it equals the row count iff every row is normal, and it is zero iff no row is normal |
| DataAnalysis.InRangeCountAppend | src/data_analysis.py:76-78 | the in-range count of two tables put together is the sum of their counts, so each normal row is counted exactly once |
| DataAnalysis.TimeInRange | src/data_analysis.py:65-84 | 0 for an empty table; otherwise the percentage times the number of rows is 100 times the in-range count; always between 0 and 100; 100 iff every row is in the inclusive range; 0 iff none is |
| DataAnalysis.Average | src/data_analysis.py:35-45 | the mean of a group whose readings are all equal is that reading |
| DataAnalysis.AverageTimesCount | src/data_analysis.py:42 | the mean times the number of rows is the sum of the glucose values |
| DataAnalysis.AverageBetweenBounds | src/data_analysis.py:35-45 | the mean glucose of a non-empty group lies between any lower and upper bound of its values |
| Summaries.Select | src/data_analysis.py:115 | a group has exactly the rows of the table with its key, and is never longer than the table |
| Summaries.SelectKeepsEveryCopy | src/data_analysis.py:115 | a group holds every copy of each row with its key, as many times as the table does, and no row with another key |
| Summaries.SelectInTableOrder | src/data_analysis.py:115 | a group keeps its rows in table order |
| Summaries.SummaryOver | src/data_analysis.py:114-128 | at most one line per listed key; every line has a listed key and a positive total |
| Summaries.SummaryLinesMatchGroups | src/data_analysis.py:115-127 | every line's group is non-empty, and the line is that group's average, highs, lows, time in range and total |
| Summaries.EveryGroupHasLine | src/data_analysis.py:115 | every listed key that has rows gets a line |
| Summaries.SummaryInKeyOrder | src/data_analysis.py:115 | the line keys are a subsequence of the listed keys, so the lines follow key order |
| Summaries.PeriodKeysInNameOrder | src/data_analysis.py:112-115 | Afternoon, Evening, Morning, Night is the sorted order of the period names, so it is the order in which `groupby` lists them |
| Summaries.TimeBasedSummary | src/data_analysis.py:103-128 | one line for each period that occurs, in the order Afternoon, Evening, Morning, Night, each summarising exactly the rows of its period |
| Summaries.DailySummary | src/data_analysis.py:130-148 | one line for each date that occurs, in strictly ascending date order, each summarising exactly the rows of its date |
| Summaries.SummaryPartitions | src/data_analysis.py:114-147 | when every row's key is listed once, the group totals add up to the table length, and the group highs and lows add up to the whole-table counts |
| Summaries.TimeBasedSummaryPartitions | src/data_analysis.py:103-128 | the per-period totals, highs and lows add up to the whole table's |
| Summaries.DailySummaryPartitions | src/data_analysis.py:130-148 | the per-day totals, highs and lows add up to the whole table's |
| TimeFilter.LookBackDays | src/utils.py:10-27 | a look-back exists exactly for choices 1 to 5, and it is between 1 and 60 days |
| TimeFilter.LookBackTable | src/utils.py:8-27 | choices 1 to 5 look back 1, 7, 14, 30 and 60 days; 0 and 6 are rejected |
| TimeFilter.LookBackIncreasing | src/utils.py:18-27 | the look-back of 1, 7, 14, 30 and 60 days grows strictly with the menu choice |
| TimeFilter.GetTimeFilter | src/utils.py:4-27 | the first accepted answer decides the start, which is now minus its look-back and lies within the last 60 days before now; with no accepted answer there is no start |
| TimeFilter.Window | src/utils.py:41-44 | keeps the rows with start ≤ timestamp ≤ end, each as many times as it occurs in the table, and drops every other row; the result is an order-preserving subsequence |
| TimeFilter.KeepWindow | src/utils.py:41-49 | None exactly when no row falls in the window; otherwise a non-empty subsequence holding every row inside it, with its multiplicity, and no other row |
| TimeFilter.FilterBloodSugarData | src/utils.py:30-53 | None without an accepted choice; otherwise the window from the chosen start to now, with None in place of an empty table; every row of the last day is kept |

## Left out

- The scheduler (`BackgroundScheduler`, the `time.sleep` loop and shutdown, src/main.py:131-150) is library-driven timing and concurrency. `Monitor.Trace` only feeds ticks in sequence.
- The LibreLinkUp client (src/api.py, src/config.py) is network I/O. It is replaced by the `Fetch` input. The nesting `cgm_data["connection"]["glucoseMeasurement"]` counts as part of the fetch.
- The Twilio transport (src/send_sms.py) is an external service, and the file contains unresolved merge markers. An SMS is modelled as the `Message` handed to `send_alert`, whose own failures are printed and swallowed.
- SQL plumbing (src/database.py) is external storage. `log_data` is an appended `LogRecord` or a raised error. `notes` is never passed and is not modelled.
- Missing or non-numeric threshold variables make every predicate raise a ValueError. They are not modelled, because thresholds are parameters here.
- Monitor.ParseReading: the measurement has only numbers and strings. JSON booleans and nulls are not modelled, and neither is the int/float distinction.
- Monitor.SmsText: Python's `str()` of the timestamp and value is the parameter `show`.
- Time has minute precision. Seconds and microseconds of `datetime` are not modelled.
- DataAnalysis.TimeInRange: the result is the unrounded percentage. `round(..., 2)` is floating point and is not modelled. The same holds for `average_glucose` and `time_in_range` in Summaries.SummaryOver.
- The mean of an empty table (pandas gives NaN) and the KeyError path of `calculate_average_blood_sugar` are not modelled. Averages are only taken over the non-empty groups that the summaries build.
- Timestamp parsing and dropping unparsable rows (src/data_analysis.py:22-33) are pandas mechanics. Rows arrive with integer-minute timestamps, sorted.
- The interactive menus of src/data_analysis.py:150-252, src/log_insulin.py, src/sample_database.py and the plots of src/data_visualization.py are interactive I/O and plotting.
- Summaries.DailySummary: groups are taken over every day from the first to the last day of the table, and days without rows are skipped. Its contract shows the result has pandas' `groupby` keys: every date that occurs, in ascending order, each with a non-empty group.
- The store is one value for the whole tick. A store that accepts the first `log_data` of a tick and fails on a later one is not modelled.

=== FILE: analysis.dfy ===
/** Threshold predicates of `src/analysis.py`.

    Each predicate reads the four thresholds from the environment on every
    call; here they are an explicit `Thresholds` record.  A measurement is the dictionary
    returned by the CGM service: a map from field names to JSON-ish values. */
module Analysis {
  import opened Wrappers

  /** The four configured thresholds, in mmol/L. */
  datatype Thresholds = Thresholds(extremeLow: real, low: real, high: real, extremeHigh: real)
  {
    /** The ordering the configuration is meant to respect; no code checks it. */
    predicate Ordered() {
      extremeLow <= low <= high <= extremeHigh
    }
  }

  /** A value of the measurement dictionary. */
  datatype Field = Num(n: real) | Text(s: string)

  type Measurement = map<string, Field>

  /** The two exceptions the predicates can raise. */
  datatype AnalysisError =
    | KeyNotFound(message: string)   // KeyError from `retrieve_value`
    | NotComparable(message: string) // ValueError wrapping the TypeError of `<`/`>`

  const ValueKey: string := "Value"

  // ---------------------------------------------------------------------------
  // The comparisons, on a numeric value.

  predicate IsLow(th: Thresholds, v: real) { v < th.low }

  predicate IsHigh(th: Thresholds, v: real) { v > th.high }

  predicate IsExtremelyLow(th: Thresholds, v: real) { v < th.extremeLow }

  predicate IsExtremelyHigh(th: Thresholds, v: real) { v > th.extremeHigh }

  predicate IsNormal(th: Thresholds, v: real) { th.low <= v <= th.high }

  /** "Normal" is exactly "neither low nor high": the strict bounds of the low
      and high tests and the inclusive bounds of the normal test meet exactly. */
  lemma NormalIffNeitherLowNorHigh(th: Thresholds, v: real)
    ensures IsNormal(th, v) <==> !IsLow(th, v) && !IsHigh(th, v)
  {
  }

  /** The boundary values themselves are normal, not low or high. */
  lemma ThresholdsAreNormal(th: Thresholds)
    requires th.low <= th.high
    ensures IsNormal(th, th.low) && !IsLow(th, th.low)
    ensures IsNormal(th, th.high) && !IsHigh(th, th.high)
  {
  }

  /** With ordered thresholds the extreme tests are contained in the plain ones. */
  lemma ExtremeImpliesPlain(th: Thresholds, v: real)
    ensures th.extremeLow <= th.low && IsExtremelyLow(th, v) ==> IsLow(th, v)
    ensures th.extremeHigh >= th.high && IsExtremelyHigh(th, v) ==> IsHigh(th, v)
  {
  }

  /** Without the ordering a reading can be extremely low and normal at once. */
  lemma UnorderedExtremeLowCanBeNormal()
    ensures var th := Thresholds(5.0, 3.9, 9.0, 13.9);
            IsExtremelyLow(th, 4.0) && IsNormal(th, 4.0) && !IsLow(th, 4.0)
  {
  }

  // ---------------------------------------------------------------------------
  // The predicates of `src/analysis.py`, on the measurement dictionary.

  /** `retrieve_value`: the entry under `key`, or a KeyError naming the key. */
  function RetrieveValue<V>(data: map<string, V>, key: string): (r: Result<V, AnalysisError>)
    ensures key in data <==> r.Ok?
    ensures r.Ok? ==> r.value == data[key]
    ensures r.Err? ==> r.error == KeyNotFound("Key '" + key + "' not found in the provided data.")
  {
    if key in data then Ok(data[key])
    else Err(KeyNotFound("Key '" + key + "' not found in the provided data."))
  }

  /** Which of the five predicates is being evaluated. */
  datatype Test = LowTest | HighTest | ExtremelyLowTest | ExtremelyHighTest | NormalTest

  /** The comparison each predicate applies to the value. */
  predicate Compare(test: Test, th: Thresholds, v: real) {
    match test
    case LowTest => IsLow(th, v)
    case HighTest => IsHigh(th, v)
    case ExtremelyLowTest => IsExtremelyLow(th, v)
    case ExtremelyHighTest => IsExtremelyHigh(th, v)
    case NormalTest => IsNormal(th, v)
  }

  /** The wording of the ValueError each predicate raises. */
  function ErrorContext(test: Test): string {
    match test
    case LowTest => "Error determining low blood sugar: "
    case HighTest => "Error determining high blood sugar: "
    case ExtremelyLowTest => "Error determining extremely low blood sugar: "
    case ExtremelyHighTest => "Error determining extremely high blood sugar: "
    case NormalTest => "Error determining normal blood sugar level: "
  }

  /** `is_low_blood_sugar`, `is_high_blood_sugar`, `is_extremely_low`,
      `is_extremely_high` and `is_normal_level`: look up "Value" (a KeyError
      escapes uncaught) and compare it; a non-numeric value makes the
      comparison raise, which surfaces as a ValueError. */
  function Evaluate(test: Test, th: Thresholds, data: Measurement): (r: Result<bool, AnalysisError>)
    ensures r.Ok? <==> ValueKey in data && data[ValueKey].Num?
    ensures r.Ok? ==> r.value == Compare(test, th, data[ValueKey].n)
    ensures ValueKey !in data ==> r.Err? && r.error.KeyNotFound?
    ensures ValueKey in data && data[ValueKey].Text? ==> r == Err(NotComparable(ErrorContext(test)))
  {
    match RetrieveValue(data, ValueKey)
    case Err(e) => Err(e)
    case Ok(field) =>
      match field
      case Num(v) => Ok(Compare(test, th, v))
      case Text(_) => Err(NotComparable(ErrorContext(test)))
  }

  /** The predicates depend on nothing but the "Value" entry and the
      thresholds: two measurements agreeing on it give the same answers. */
  lemma EvaluateDependsOnlyOnValue(test: Test, th: Thresholds, a: Measurement, b: Measurement)
    requires ValueKey in a <==> ValueKey in b
    requires ValueKey in a ==> a[ValueKey] == b[ValueKey]
    ensures Evaluate(test, th, a).Ok? <==> Evaluate(test, th, b).Ok?
    ensures Evaluate(test, th, a).Ok? ==> Evaluate(test, th, a) == Evaluate(test, th, b)
  {
  }
}

=== FILE: data_analysis.dfy ===
/** The whole-table statistics of `src/data_analysis.py`. */
module DataAnalysis {
  import opened Wrappers
  import opened Analysis
  import opened Table
  import Monitor

  // ---------------------------------------------------------------------------
  // `categorize_time_of_day`

  datatype Period = Morning | Afternoon | Evening | Night

  function PeriodName(p: Period): string {
    match p
    case Morning => "Morning"
    case Afternoon => "Afternoon"
    case Evening => "Evening"
    case Night => "Night"
  }

  /** The `if`/`elif` chain on the hour; everything outside 6..23 is Night. */
  function CategorizeTimeOfDay(hour: int): (p: Period)
    ensures p == Morning <==> 6 <= hour < 12
    ensures p == Afternoon <==> 12 <= hour < 18
    ensures p == Evening <==> 18 <= hour < 24
    ensures p == Night <==> hour < 6 || hour >= 24
  {
    if 6 <= hour < 12 then Morning
    else if 12 <= hour < 18 then Afternoon
    else if 18 <= hour < 24 then Evening
    else Night
  }

  /** On a real hour of the day, Night is exactly the small hours. */
  lemma NightIsBeforeSix(hour: int)
    requires 0 <= hour < 24
    ensures CategorizeTimeOfDay(hour) == Night <==> hour < 6
  {
  }

  /** The period of a row, from the hour of its timestamp. */
  function PeriodOfRow(r: Row): Period {
    CategorizeTimeOfDay(HourOf(r.timestamp))
  }

  /** The same clock time `d` days later falls in the same period and on the
      date `d` days later, so the per-period and per-day groupings agree from
      one day to the next. */
  lemma {:induction false} PeriodIgnoresDate(r: Row, d: nat)
    ensures PeriodOfRow(r.(timestamp := r.timestamp + d * MinutesPerDay)) == PeriodOfRow(r)
    ensures DateOf(r.timestamp + d * MinutesPerDay) == DateOf(r.timestamp) + d
  {
    if d > 0 {
      PeriodIgnoresDate(r, d - 1);
      var t := r.timestamp + (d - 1) * MinutesPerDay;
      assert t + MinutesPerDay == r.timestamp + d * MinutesPerDay;
      NextDay(t);
    }
  }

  /** One day later: same hour, next date. */
  lemma NextDay(t: int)
    ensures HourOf(t + MinutesPerDay) == HourOf(t)
    ensures DateOf(t + MinutesPerDay) == DateOf(t) + 1
  {
    var q, m := t / MinutesPerDay, t % MinutesPerDay;
    assert t + MinutesPerDay == MinutesPerDay * (q + 1) + m && 0 <= m < MinutesPerDay;
    assert (t + MinutesPerDay) / MinutesPerDay == q + 1;
    assert (t + MinutesPerDay) % MinutesPerDay == m;
  }

  // ---------------------------------------------------------------------------
  // `high_low_count`

  /** Rows whose `alert_type` is exactly `tag`. */
  function CountLabel(rows: seq<Row>, tag: string): (n: nat)
    ensures n <= |rows|
  {
    if rows == [] then 0
    else CountLabel(rows[..|rows| - 1], tag) + (if rows[|rows| - 1].alertType == Some(tag) then 1 else 0)
  }

  /** A row counts as a high or as a low, never both, so highs and lows
      together never exceed the number of rows. */
  lemma {:induction false} HighsAndLowsBounded(rows: seq<Row>)
    ensures CountLabel(rows, "High") + CountLabel(rows, "Low") <= |rows|
  {
    if rows != [] {
      HighsAndLowsBounded(rows[..|rows| - 1]);
    }
  }

  /** The loop over `iterrows()`: one pass, comparing `alert_type` with
      "High" and with "Low". */
  method HighLowCount(rows: seq<Row>) returns (highs: nat, lows: nat)
    ensures highs == CountLabel(rows, "High") && lows == CountLabel(rows, "Low")
    ensures highs + lows <= |rows|
  {
    highs, lows := 0, 0;
    var i := 0;
    while i < |rows|
      invariant 0 <= i <= |rows|
      invariant highs == CountLabel(rows[..i], "High")
      invariant lows == CountLabel(rows[..i], "Low")
      invariant highs + lows <= i
    {
      assert rows[..i + 1][..i] == rows[..i];
      if rows[i].alertType == Some("High") {
        highs := highs + 1;
      }
      if rows[i].alertType == Some("Low") {
        lows := lows + 1;
      }
      i := i + 1;
    }
    assert rows[..|rows|] == rows;
  }

  /** Of the monitor's four alert types only the plain low alert is counted as
      a low and only the plain high alert as a high: extreme alerts and plain
      readings are in neither count. */
  lemma OnlyPlainAlertsCounted(c: Monitor.Condition)
    ensures Monitor.AlertType(c) == "Low" <==> c == Monitor.Low
    ensures Monitor.AlertType(c) == "High" <==> c == Monitor.High
  {
  }

  // ---------------------------------------------------------------------------
  // `get_time_in_range`

  /** Rows whose glucose lies in the inclusive target range. */
  function InRangeCount(rows: seq<Row>, th: Thresholds): (n: nat)
    ensures n <= |rows|
    ensures n == |rows| <==> forall i :: 0 <= i < |rows| ==> IsNormal(th, rows[i].glucose)
    ensures n == 0 <==> forall i :: 0 <= i < |rows| ==> !IsNormal(th, rows[i].glucose)
  {
    if rows == [] then 0
    else
      var front := rows[..|rows| - 1];
      assert forall i :: 0 <= i < |front| ==> front[i] == rows[i];
      InRangeCount(front, th) + (if IsNormal(th, rows[|rows| - 1].glucose) then 1 else 0)
  }

  /** Counting in range is additive over a split of the table, so together
      with the single-row case fixed above it counts each normal row once. */
  lemma {:induction false} InRangeCountAppend(a: seq<Row>, b: seq<Row>, th: Thresholds)
    ensures InRangeCount(a + b, th) == InRangeCount(a, th) + InRangeCount(b, th)
    decreases |b|
  {
    if b != [] {
      var ab := a + b;
      var b' := b[..|b| - 1];
      var last := b[|b| - 1];
      var bump := if IsNormal(th, last.glucose) then 1 else 0;
      assert ab[..|ab| - 1] == a + b' && ab[|ab| - 1] == last;
      assert InRangeCount(ab, th) == InRangeCount(a + b', th) + bump;
      assert InRangeCount(b, th) == InRangeCount(b', th) + bump;
      InRangeCountAppend(a, b', th);
    } else {
      assert a + b == a;
    }
  }

  /** Percentage of rows in range, before `get_time_in_range` rounds it to
      two decimals; zero for an empty table.  Times the number of rows it
      gives back 100 times the in-range count. */
  function TimeInRange(rows: seq<Row>, th: Thresholds): (pct: real)
    ensures |rows| == 0 ==> pct == 0.0
    ensures 0.0 <= pct <= 100.0
    ensures |rows| > 0 ==> (pct == 100.0 <==> forall i :: 0 <= i < |rows| ==> IsNormal(th, rows[i].glucose))
    ensures pct == 0.0 <==> forall i :: 0 <= i < |rows| ==> !IsNormal(th, rows[i].glucose)
    ensures |rows| > 0 ==> pct * (|rows| as real) == 100.0 * (InRangeCount(rows, th) as real)
  {
    if |rows| == 0 then 0.0
    else
      PercentOfWhole(InRangeCount(rows, th) as real, |rows| as real);
      Percent(InRangeCount(rows, th) as real, |rows| as real)
  }

  /** `part` as a percentage of `whole`. */
  function Percent(part: real, whole: real): (p: real)
    requires 0.0 <= part <= whole && whole > 0.0
    ensures 0.0 <= p <= 100.0
    ensures p == 100.0 <==> part == whole
    ensures p == 0.0 <==> part == 0.0
  {
    RatioAtMostOne(part, whole);
    part / whole * 100.0
  }

  lemma PercentOfWhole(part: real, whole: real)
    requires 0.0 <= part <= whole && whole > 0.0
    ensures Percent(part, whole) * whole == 100.0 * part
  {
    assert part / whole * whole == part;
  }

  lemma RatioAtMostOne(part: real, whole: real)
    requires 0.0 <= part <= whole && whole > 0.0
    ensures 0.0 <= part / whole <= 1.0
    ensures part / whole == 1.0 <==> part == whole
  {
    assert part / whole * whole == part;
  }

  // ---------------------------------------------------------------------------
  // `calculate_average_blood_sugar`, on the non-empty groups it is applied to.

  function SumGlucose(rows: seq<Row>): real {
    if rows == [] then 0.0 else SumGlucose(rows[..|rows| - 1]) + rows[|rows| - 1].glucose
  }

  /** The mean; a group whose readings are all equal averages to that
      reading. */
  function Average(rows: seq<Row>): (a: real)
    requires |rows| > 0
    ensures (forall i :: 0 <= i < |rows| ==> rows[i].glucose == rows[0].glucose) ==> a == rows[0].glucose
  {
    EqualReadingsMean(rows);
    SumGlucose(rows) / (|rows| as real)
  }

  /** A sum of equal readings, divided by their number, is that reading. */
  lemma EqualReadingsMean(rows: seq<Row>)
    requires |rows| > 0
    ensures (forall i :: 0 <= i < |rows| ==> rows[i].glucose == rows[0].glucose)
            ==> SumGlucose(rows) / (|rows| as real) == rows[0].glucose
  {
    var c := rows[0].glucose;
    if forall i :: 0 <= i < |rows| ==> rows[i].glucose == c {
      SumBounds(rows, c, c);
      DivideBack(c, |rows| as real);
    }
  }

  lemma DivideBack(c: real, n: real)
    requires n > 0.0
    ensures c * n / n == c
  {
  }

  /** The mean times the number of rows gives back the sum. */
  lemma AverageTimesCount(rows: seq<Row>)
    requires |rows| > 0
    ensures Average(rows) * (|rows| as real) == SumGlucose(rows)
  {
    var n := |rows| as real;
    assert SumGlucose(rows) / n * n == SumGlucose(rows);
  }

  lemma {:induction false} SumBounds(rows: seq<Row>, lo: real, hi: real)
    requires forall i :: 0 <= i < |rows| ==> lo <= rows[i].glucose <= hi
    ensures lo * (|rows| as real) <= SumGlucose(rows) <= hi * (|rows| as real)
  {
    if rows != [] {
      var front := rows[..|rows| - 1];
      assert forall i :: 0 <= i < |front| ==> front[i] == rows[i];
      SumBounds(front, lo, hi);
      var m := |front| as real;
      var last := rows[|rows| - 1].glucose;
      assert SumGlucose(rows) == SumGlucose(front) + last;
      assert lo <= last <= hi;
      assert |rows| as real == m + 1.0;
      assert lo * m + lo == lo * (m + 1.0) && hi * m + hi == hi * (m + 1.0);
    }
  }

  /** The mean lies between any lower and upper bound of the values. */
  lemma AverageBetweenBounds(rows: seq<Row>, lo: real, hi: real)
    requires |rows| > 0
    requires forall i :: 0 <= i < |rows| ==> lo <= rows[i].glucose <= hi
    ensures lo <= Average(rows) <= hi
  {
    SumBounds(rows, lo, hi);
    var n := |rows| as real;
    assert lo * n / n == lo && hi * n / n == hi;
  }
}

=== FILE: monitor.dfy ===
/** The alerting core of `monitor_blood_sugar` in `src/main.py`.

    One call of `monitor_blood_sugar` is one `Tick`: it takes the cooldown
    registry (the four module-level `last_*_alert_time` globals), the fetched
    measurement, the current time and the state of the reading store, and
    returns the new registry together with the SMS messages handed to
    `send_alert` and the records handed to `log_data`, in call order.
    Times are integer minutes; the two `datetime.now()` calls of one branch
    are collapsed into the tick's single `now`. */
module Monitor {
  import opened Wrappers
  import opened Analysis

  /** The four alert conditions, in the order `monitor_blood_sugar` checks
      them. */
  datatype Condition = ExtremeLow | ExtremeHigh | Low | High

  const AllConditions: seq<Condition> := [ExtremeLow, ExtremeHigh, Low, High]

  /** Every condition has its block. */
  lemma EveryConditionChecked()
    ensures forall c: Condition :: c in AllConditions
  {
    forall c: Condition ensures c in AllConditions {
      match c
      case ExtremeLow => assert AllConditions[0] == c;
      case ExtremeHigh => assert AllConditions[1] == c;
      case Low => assert AllConditions[2] == c;
      case High => assert AllConditions[3] == c;
    }
  }

  /** Minutes that must strictly elapse before a condition fires again. */
  function Cooldown(c: Condition): nat {
    match c
    case ExtremeLow => 7
    case ExtremeHigh => 30
    case Low => 15
    case High => 30
  }

  /** The `condition` argument of `send_alert`, used inside the SMS text. */
  function Label(c: Condition): string {
    match c
    case ExtremeLow => "EXTREMELY low"
    case ExtremeHigh => "EXTREMELY high"
    case Low => "low"
    case High => "high"
  }

  /** The `alert_type` column written by `log_data`. */
  function AlertType(c: Condition): string {
    match c
    case ExtremeLow => "EXTREMELY low"
    case ExtremeHigh => "EXTREMELY high"
    case Low => "Low"
    case High => "High"
  }

  /** The fixed suggested action of each condition. */
  function Action(c: Condition): string {
    match c
    case ExtremeLow => "Take immediate action! Drink juice and check again in 15 minutes."
    case ExtremeHigh => "Take immediate corrective dosage and monitor closely."
    case Low => "Drink juice and check blood sugar again in 15 minutes."
    case High => "Take a corrective dosage and monitor closely."
  }

  /** The threshold test that guards each condition. */
  predicate Holds(th: Thresholds, c: Condition, v: real) {
    match c
    case ExtremeLow => IsExtremelyLow(th, v)
    case ExtremeHigh => IsExtremelyHigh(th, v)
    case Low => IsLow(th, v)
    case High => IsHigh(th, v)
  }

  // ---------------------------------------------------------------------------
  // Cooldown registry.

  /** Last firing time of each condition; `None` means "never fired since the
      last normal reading or since start-up". */
  datatype Registry = Registry(extremeLow: Option<int>, extremeHigh: Option<int>,
                               low: Option<int>, high: Option<int>)
  {
    function Get(c: Condition): Option<int> {
      match c
      case ExtremeLow => extremeLow
      case ExtremeHigh => extremeHigh
      case Low => low
      case High => high
    }

    /** Stamp one condition; every other slot is kept. */
    function Stamp(c: Condition, now: int): (r: Registry)
      ensures r.Get(c) == Some(now)
      ensures forall d :: d != c ==> r.Get(d) == Get(d)
    {
      match c
      case ExtremeLow => this.(extremeLow := Some(now))
      case ExtremeHigh => this.(extremeHigh := Some(now))
      case Low => this.(low := Some(now))
      case High => this.(high := Some(now))
    }
  }

  /** The registry at process start and after every normal reading. */
  const Empty: Registry := Registry(None, None, None, None)

  /** The cooldown test: never fired, or `now` strictly past last + cooldown. */
  predicate Due(reg: Registry, c: Condition, now: int) {
    reg.Get(c).None? || now > reg.Get(c).value + Cooldown(c)
  }

  /** A condition fires when its test holds and its cooldown has elapsed. */
  predicate Fires(reg: Registry, th: Thresholds, c: Condition, v: real, now: int) {
    Holds(th, c, v) && Due(reg, c, now)
  }

  // ---------------------------------------------------------------------------
  // Tick inputs and outputs.

  /** The latest reading, as extracted from the measurement dictionary. */
  datatype Reading = Reading(timestamp: Field, value: real)

  /** What `get_cgm_data` produced: the measurement, or a failure of the login,
      the patient lookup, the HTTP request or the nesting of the JSON. */
  datatype Fetch = Fetched(measurement: Measurement) | FetchFailed

  /** Whether `log_data` returns normally (a record is appended, or an SQLite
      error is swallowed by `execute_query`) or raises out of it (no
      connection could be opened, so `con.cursor()` fails). */
  datatype Store = StoreUp | StoreDown

  /** Exceptions that end a tick inside the `try` of `monitor_blood_sugar`. */
  datatype TickError =
    | FetchError                      // login / patient / CGM request failed
    | MissingKey(key: string)         // `latest_measurement[key]` raised KeyError
    | BadValue(e: AnalysisError)      // `is_extremely_low` raised on a non-number
    | StoreError                      // `log_data` raised

  /** One SMS handed to `send_alert`. */
  datatype Message = Message(timestamp: Field, user: string, condition: Condition, value: real)

  /** One call of `log_data`; `notes` is never passed and stays null. */
  datatype LogRecord = LogRecord(timestamp: Field, value: real, alertType: Option<string>, logType: string)

  /** The outcome of a tick: the registry afterwards, messages and log
      records in call order, and the exception that ended it, if any. */
  datatype Step = Step(reg: Registry, messages: seq<Message>, logs: seq<LogRecord>, error: Option<TickError>)

  function AlertRecord(c: Condition, rd: Reading): LogRecord {
    LogRecord(rd.timestamp, rd.value, Some(AlertType(c)), "alert")
  }

  function ReadingRecord(rd: Reading): LogRecord {
    LogRecord(rd.timestamp, rd.value, None, "Reading")
  }

  // ---------------------------------------------------------------------------
  // The tick.

  /** `latest_measurement["Timestamp"]`, `latest_measurement["Value"]`, then the
      first predicate call, which raises when the value is not a number.  Every
      later predicate sees the same value and therefore cannot fail. */
  function ParseReading(th: Thresholds, m: Measurement): (r: Result<Reading, TickError>)
    ensures r.Ok? <==> "Timestamp" in m && ValueKey in m && m[ValueKey].Num?
    ensures r.Ok? ==> r.value == Reading(m["Timestamp"], m[ValueKey].n)
    ensures "Timestamp" !in m ==> r == Err(MissingKey("Timestamp"))
    ensures "Timestamp" in m && ValueKey !in m ==> r == Err(MissingKey(ValueKey))
    ensures "Timestamp" in m && ValueKey in m && m[ValueKey].Text? ==>
              r == Err(BadValue(NotComparable(ErrorContext(ExtremelyLowTest))))
  {
    if "Timestamp" !in m then Err(MissingKey("Timestamp"))
    else if ValueKey !in m then Err(MissingKey(ValueKey))
    else match Analysis.Evaluate(ExtremelyLowTest, th, m)
      case Err(e) => Err(BadValue(e))
      case Ok(_) => Ok(Reading(m["Timestamp"], m[ValueKey].n))
  }

  /** The four `if` blocks, run over `conds` in order.  A firing condition
      sends its SMS, then logs, then stamps; if logging raises, the tick
      stops right there, after the SMS and before the stamp. */
  function Alerts(reg: Registry, th: Thresholds, user: string, rd: Reading, now: int,
                  store: Store, conds: seq<Condition>): (r: Step)
    ensures |r.messages| <= |conds|
    ensures r.error.None? || r.error == Some(StoreError)
    ensures store == StoreUp ==> r.error.None? && |r.logs| == |r.messages|
    ensures store == StoreDown ==> r.logs == [] && r.reg == reg && |r.messages| <= 1
    ensures store == StoreDown ==> (r.error.None? <==> r.messages == [])
    ensures store == StoreDown ==> (r.messages == [] <==> forall d :: d in conds ==> !Fires(reg, th, d, rd.value, now))
    ensures store == StoreDown && r.messages != [] ==>
              var c := r.messages[0].condition;
              c in conds && Fires(reg, th, c, rd.value, now) && r.messages[0] == Message(rd.timestamp, user, c, rd.value)
    ensures forall d :: d !in conds ==> r.reg.Get(d) == reg.Get(d)
    decreases |conds|
  {
    if conds == [] then Step(reg, [], [], None)
    else
      var c := conds[0];
      if Fires(reg, th, c, rd.value, now) then
        var msg := Message(rd.timestamp, user, c, rd.value);
        if store == StoreDown then Step(reg, [msg], [], Some(StoreError))
        else
          var rest := Alerts(reg.Stamp(c, now), th, user, rd, now, store, conds[1..]);
          Step(rest.reg, [msg] + rest.messages, [AlertRecord(c, rd)] + rest.logs, rest.error)
      else
        Alerts(reg, th, user, rd, now, store, conds[1..])
  }

  /** The alert blocks followed by the normal block: a normal reading clears
      every stamp and then logs a plain "Reading".  The registry is cleared
      before `log_data` runs, so a failing store does not undo the reset. */
  function Respond(reg: Registry, th: Thresholds, user: string, rd: Reading, now: int, store: Store): (r: Step)
    ensures store == StoreUp ==> r.error.None?
    ensures store == StoreUp ==> |r.logs| == |r.messages| + (if IsNormal(th, rd.value) then 1 else 0)
    ensures store == StoreUp && IsNormal(th, rd.value) ==> r.reg == Empty && r.logs[|r.logs| - 1] == ReadingRecord(rd)
    ensures store == StoreDown ==> r.logs == [] && |r.messages| <= 1
    ensures store == StoreDown ==> r.reg == (if IsNormal(th, rd.value) && r.messages == [] then Empty else reg)
    ensures store == StoreDown ==> (r.error.None? <==> r.messages == [] && !IsNormal(th, rd.value))
    ensures store == StoreDown ==> (r.messages == [] <==> forall c :: !Fires(reg, th, c, rd.value, now))
    ensures store == StoreDown && r.messages != [] ==>
              Fires(reg, th, r.messages[0].condition, rd.value, now)
              && r.messages[0] == Message(rd.timestamp, user, r.messages[0].condition, rd.value)
  {
    EveryConditionChecked();
    var s := Alerts(reg, th, user, rd, now, store, AllConditions);
    if s.error.Some? then s
    else if IsNormal(th, rd.value) then
      if store == StoreDown then Step(Empty, s.messages, s.logs, Some(StoreError))
      else Step(Empty, s.messages, s.logs + [ReadingRecord(rd)], None)
    else s
  }

  /** One run of `monitor_blood_sugar`.  Every exception is caught at the end
      of the function, so a failed tick keeps whatever state it had reached. */
  function Tick(reg: Registry, th: Thresholds, user: string, fetch: Fetch, now: int, store: Store): (r: Step)
    ensures fetch.FetchFailed? ==> r == Step(reg, [], [], Some(FetchError))
    ensures fetch.Fetched? && ParseReading(th, fetch.measurement).Err? ==>
              r == Step(reg, [], [], Some(ParseReading(th, fetch.measurement).error))
  {
    match fetch
    case FetchFailed => Step(reg, [], [], Some(FetchError))
    case Fetched(m) =>
      match ParseReading(th, m)
      case Err(e) => Step(reg, [], [], Some(e))
      case Ok(rd) => Respond(reg, th, user, rd, now, store)
  }

  /** A sequence of ticks, each fed the registry left by the previous one. */
  function Trace(reg: Registry, th: Thresholds, user: string, ticks: seq<(Fetch, int)>, store: Store): (steps: seq<Step>)
    ensures |steps| == |ticks|
    decreases |ticks|
  {
    if ticks == [] then []
    else
      var s := Tick(reg, th, user, ticks[0].0, ticks[0].1, store);
      [s] + Trace(s.reg, th, user, ticks[1..], store)
  }

  // ---------------------------------------------------------------------------
  // The SMS text of `send_alert`.

  /** The middle line of the SMS, with its surrounding line breaks: who, how
      the reading is worded for the condition, and the value. */
  function AlertLine(msg: Message, show: Field -> string): string {
    "\nAlert! " + msg.user + "'s blood glucose is " + Label(msg.condition)
    + "! Glucose Reading: " + show(Num(msg.value)) + "\n"
  }

  /** `show` stands for Python's `str()` of a measurement field.  The text
      is three lines: the reading's time; the user, the condition's wording
      and the value; the condition's suggested action. */
  function SmsText(msg: Message, show: Field -> string): (t: string)
    ensures |t| > |show(msg.timestamp)| + |Action(msg.condition)| + 24
    ensures t[..6] == "Time: " && t[6..6 + |show(msg.timestamp)|] == show(msg.timestamp)
    ensures t[6 + |show(msg.timestamp)|..|t| - |Action(msg.condition)| - 18] == AlertLine(msg, show)
    ensures t[|t| - |Action(msg.condition)| - 18..|t| - |Action(msg.condition)|] == "Suggested Action: "
    ensures t[|t| - |Action(msg.condition)|..] == Action(msg.condition)
  {
    var head := "Time: " + show(msg.timestamp);
    var body := AlertLine(msg, show);
    var tail := "Suggested Action: " + Action(msg.condition);
    var t := head + body + tail;
    assert t[..6] == head[..6] && t[6..|head|] == head[6..];
    assert t[|head|..|head| + |body|] == body;
    assert t[|t| - |tail|..] == tail;
    t
  }
}

=== FILE: monitor_proofs.dfy ===
/** Properties of the alerting tick of `src/main.py`. */
module MonitorProofs {
  import opened Wrappers
  import opened Analysis
  import opened Monitor

  // ---------------------------------------------------------------------------
  // Reference description of a tick: which conditions fire, judged against the
  // registry as it was when the tick started.

  /** The conditions of `conds` that fire, in order. */
  function FiredConditions(reg: Registry, th: Thresholds, v: real, now: int, conds: seq<Condition>): (fs: seq<Condition>)
    ensures forall d :: d in fs <==> d in conds && Fires(reg, th, d, v, now)
    decreases |conds|
  {
    if conds == [] then []
    else if Fires(reg, th, conds[0], v, now) then [conds[0]] + FiredConditions(reg, th, v, now, conds[1..])
    else FiredConditions(reg, th, v, now, conds[1..])
  }

  function MessagesFor(cs: seq<Condition>, user: string, rd: Reading): (ms: seq<Message>)
    ensures |ms| == |cs|
    ensures forall i :: 0 <= i < |cs| ==> ms[i] == Message(rd.timestamp, user, cs[i], rd.value)
  {
    seq(|cs|, i requires 0 <= i < |cs| => Message(rd.timestamp, user, cs[i], rd.value))
  }

  function RecordsFor(cs: seq<Condition>, rd: Reading): (ls: seq<LogRecord>)
    ensures |ls| == |cs|
    ensures forall i :: 0 <= i < |cs| ==> ls[i] == AlertRecord(cs[i], rd)
  {
    seq(|cs|, i requires 0 <= i < |cs| => AlertRecord(cs[i], rd))
  }

  /** The conditions named by a sequence of messages. */
  function ConditionsOf(ms: seq<Message>): (cs: seq<Condition>)
    ensures |cs| == |ms|
    ensures forall i :: 0 <= i < |ms| ==> cs[i] == ms[i].condition
  {
    seq(|ms|, i requires 0 <= i < |ms| => ms[i].condition)
  }

  /** The registry a tick should leave, slot by slot. */
  function Expected(reg: Registry, th: Thresholds, v: real, now: int, c: Condition): Option<int> {
    if IsNormal(th, v) then None
    else if Fires(reg, th, c, v, now) then Some(now)
    else reg.Get(c)
  }

  lemma MessagesForCons(c: Condition, fs: seq<Condition>, user: string, rd: Reading)
    ensures MessagesFor([c] + fs, user, rd) == [Message(rd.timestamp, user, c, rd.value)] + MessagesFor(fs, user, rd)
    ensures RecordsFor([c] + fs, rd) == [AlertRecord(c, rd)] + RecordsFor(fs, rd)
  {
    assert MessagesFor([c] + fs, user, rd) == [Message(rd.timestamp, user, c, rd.value)] + MessagesFor(fs, user, rd);
    assert RecordsFor([c] + fs, rd) == [AlertRecord(c, rd)] + RecordsFor(fs, rd);
  }

  predicate Distinct(cs: seq<Condition>) {
    forall i, j :: 0 <= i < j < |cs| ==> cs[i] != cs[j]
  }

  // ---------------------------------------------------------------------------
  // The sequential loop agrees with the reference description.

  /** Stamping a condition not in `conds` changes nothing about which of
      `conds` fire. */
  lemma {:induction false} FiredIgnoresOtherSlots(reg: Registry, reg': Registry, th: Thresholds, v: real, now: int, conds: seq<Condition>)
    requires forall d :: d in conds ==> reg'.Get(d) == reg.Get(d)
    ensures FiredConditions(reg', th, v, now, conds) == FiredConditions(reg, th, v, now, conds)
    decreases |conds|
  {
    if conds != [] {
      FiredIgnoresOtherSlots(reg, reg', th, v, now, conds[1..]);
    }
  }

  /** With a working store, the loop over distinct conditions sends one
      message and one log record per firing condition, in order, and stamps
      exactly the firing conditions. */
  lemma {:induction false} AlertsMatchReference(reg: Registry, th: Thresholds, user: string, rd: Reading, now: int, conds: seq<Condition>)
    requires Distinct(conds)
    ensures var r := Alerts(reg, th, user, rd, now, StoreUp, conds);
            var fs := FiredConditions(reg, th, rd.value, now, conds);
            && r.error.None?
            && r.messages == MessagesFor(fs, user, rd)
            && r.logs == RecordsFor(fs, rd)
            && forall d :: r.reg.Get(d) == (if d in conds && Fires(reg, th, d, rd.value, now) then Some(now) else reg.Get(d))
    decreases |conds|
  {
    if conds != [] {
      var c := conds[0];
      var tail := conds[1..];
      assert Distinct(tail) by {
        forall i, j | 0 <= i < j < |tail| ensures tail[i] != tail[j] {
          assert tail[i] == conds[i + 1] && tail[j] == conds[j + 1];
        }
      }
      assert c !in tail by {
        forall k | 0 <= k < |tail| ensures tail[k] != c {
          assert tail[k] == conds[k + 1];
        }
      }
      if Fires(reg, th, c, rd.value, now) {
        var reg' := reg.Stamp(c, now);
        AlertsMatchReference(reg', th, user, rd, now, tail);
        FiredIgnoresOtherSlots(reg, reg', th, rd.value, now, tail);
        MessagesForCons(c, FiredConditions(reg, th, rd.value, now, tail), user, rd);
      } else {
        AlertsMatchReference(reg, th, user, rd, now, tail);
      }
    }
  }

  lemma AllConditionsDistinct()
    ensures Distinct(AllConditions)
  {
  }

  /** A tick on a well-formed measurement, with a working store: the messages
      and alert records are those of the firing conditions in the order of
      the `if` blocks, a normal reading adds one plain "Reading" record and clears the
      registry, and otherwise exactly the firing conditions are stamped. */
  lemma TickMatchesReference(reg: Registry, th: Thresholds, user: string, m: Measurement, now: int)
    requires ParseReading(th, m).Ok?
    ensures var rd := ParseReading(th, m).value;
            var r := Tick(reg, th, user, Fetched(m), now, StoreUp);
            var fs := FiredConditions(reg, th, rd.value, now, AllConditions);
            && r.error.None?
            && r.messages == MessagesFor(fs, user, rd)
            && r.logs == RecordsFor(fs, rd) + (if IsNormal(th, rd.value) then [ReadingRecord(rd)] else [])
            && forall c :: r.reg.Get(c) == Expected(reg, th, rd.value, now, c)
  {
    var rd := ParseReading(th, m).value;
    AllConditionsDistinct();
    AlertsMatchReference(reg, th, user, rd, now, AllConditions);
  }

  /** A condition's message is sent in a tick exactly when its test holds and
      its cooldown has strictly elapsed. */
  lemma FiresIffDueAndHolds(reg: Registry, th: Thresholds, user: string, m: Measurement, now: int, c: Condition)
    requires ParseReading(th, m).Ok?
    ensures var v := ParseReading(th, m).value.value;
            c in ConditionsOf(Tick(reg, th, user, Fetched(m), now, StoreUp).messages)
            <==> Holds(th, c, v) && (reg.Get(c).None? || now > reg.Get(c).value + Cooldown(c))
  {
    var rd := ParseReading(th, m).value;
    TickMatchesReference(reg, th, user, m, now);
    AllConditionsDistinct();
    var fs := FiredConditions(reg, th, rd.value, now, AllConditions);
    var ms := Tick(reg, th, user, Fetched(m), now, StoreUp).messages;
    assert ConditionsOf(ms) == fs;
  }

  /** A condition that holds but is still cooling down produces nothing: with
      no other condition firing and an abnormal reading, the tick sends no
      message, writes no record and leaves the registry as it was. */
  lemma SuppressedEmitsNothing(reg: Registry, th: Thresholds, user: string, m: Measurement, now: int)
    requires ParseReading(th, m).Ok?
    requires !IsNormal(th, ParseReading(th, m).value.value)
    requires forall c :: !Fires(reg, th, c, ParseReading(th, m).value.value, now)
    ensures Tick(reg, th, user, Fetched(m), now, StoreUp) == Step(reg, [], [], None)
  {
    var rd := ParseReading(th, m).value;
    TickMatchesReference(reg, th, user, m, now);
    var r := Tick(reg, th, user, Fetched(m), now, StoreUp);
    assert FiredConditions(reg, th, rd.value, now, AllConditions) == [];
    assert r.reg.extremeLow == reg.Get(ExtremeLow) && r.reg.extremeHigh == reg.Get(ExtremeHigh);
    assert r.reg.low == reg.Get(Low) && r.reg.high == reg.Get(High);
  }

  /** With ordered thresholds a normal reading fires nothing, clears every
      stamp and writes one plain "Reading" record without an alert type. */
  lemma NormalResets(reg: Registry, th: Thresholds, user: string, m: Measurement, now: int)
    requires th.Ordered()
    requires ParseReading(th, m).Ok?
    requires IsNormal(th, ParseReading(th, m).value.value)
    ensures var rd := ParseReading(th, m).value;
            Tick(reg, th, user, Fetched(m), now, StoreUp)
              == Step(Empty, [], [LogRecord(rd.timestamp, rd.value, None, "Reading")], None)
  {
    var rd := ParseReading(th, m).value;
    TickMatchesReference(reg, th, user, m, now);
    assert FiredConditions(reg, th, rd.value, now, AllConditions) == [];
    var r := Tick(reg, th, user, Fetched(m), now, StoreUp);
    assert r.reg.extremeLow == None && r.reg.extremeHigh == None && r.reg.low == r.reg.Get(Low) && r.reg.high == r.reg.Get(High);
  }

  /** The reset survives a failing store: with ordered thresholds a normal
      reading fires nothing, so the registry is cleared before `log_data`
      raises, and the tick ends with that error and no record. */
  lemma NormalResetsDespiteStoreDown(reg: Registry, th: Thresholds, user: string, m: Measurement, now: int)
    requires th.Ordered()
    requires ParseReading(th, m).Ok?
    requires IsNormal(th, ParseReading(th, m).value.value)
    ensures Tick(reg, th, user, Fetched(m), now, StoreDown) == Step(Empty, [], [], Some(StoreError))
  {
    var v := ParseReading(th, m).value.value;
    assert forall c :: !Holds(th, c, v);
  }

  /** On an empty registry every condition whose test holds fires. */
  lemma EmptyRegistryFiresAllThatHold(th: Thresholds, v: real, now: int, c: Condition)
    ensures Fires(Empty, th, c, v, now) <==> Holds(th, c, v)
  {
  }

  /** Reset then re-fire: after a normal reading, the next low reading sends
      the low alert at once, however soon it comes. */
  lemma ResetThenRefire(reg: Registry, th: Thresholds, user: string, m1: Measurement, t1: int, m2: Measurement, t2: int)
    requires ParseReading(th, m1).Ok? && IsNormal(th, ParseReading(th, m1).value.value)
    requires ParseReading(th, m2).Ok? && IsLow(th, ParseReading(th, m2).value.value)
    ensures var s1 := Tick(reg, th, user, Fetched(m1), t1, StoreUp);
            Low in ConditionsOf(Tick(s1.reg, th, user, Fetched(m2), t2, StoreUp).messages)
  {
    TickMatchesReference(reg, th, user, m1, t1);
    var s1 := Tick(reg, th, user, Fetched(m1), t1, StoreUp);
    assert s1.reg.Get(Low).None?;
    FiresIffDueAndHolds(s1.reg, th, user, m2, t2, Low);
  }

  /** Double firing: on an empty registry with ordered thresholds, a reading
      below the extremely-low threshold sends the "EXTREMELY low" alert and
      then the "low" alert, and stamps both. */
  lemma ExtremeLowAlsoFiresLow(th: Thresholds, user: string, m: Measurement, now: int)
    requires th.Ordered()
    requires ParseReading(th, m).Ok? && IsExtremelyLow(th, ParseReading(th, m).value.value)
    ensures var r := Tick(Empty, th, user, Fetched(m), now, StoreUp);
            && ConditionsOf(r.messages) == [ExtremeLow, Low]
            && r.reg == Registry(Some(now), None, Some(now), None)
  {
    var rd := ParseReading(th, m).value;
    var v := rd.value;
    assert Holds(th, ExtremeLow, v) && !Holds(th, ExtremeHigh, v) && Holds(th, Low, v) && !Holds(th, High, v);
    assert !IsNormal(th, v);
    TickMatchesReference(Empty, th, user, m, now);
    var fs := FiredConditions(Empty, th, v, now, AllConditions);
    assert FiredConditions(Empty, th, v, now, [Low, High]) == [Low];
    assert FiredConditions(Empty, th, v, now, [ExtremeHigh, Low, High]) == [Low];
    assert fs == [ExtremeLow, Low];
    var r := Tick(Empty, th, user, Fetched(m), now, StoreUp);
    assert ConditionsOf(r.messages) == fs;
    assert r.reg.extremeLow == r.reg.Get(ExtremeLow) && r.reg.extremeHigh == r.reg.Get(ExtremeHigh);
    assert r.reg.low == r.reg.Get(Low) && r.reg.high == r.reg.Get(High);
  }

  // ---------------------------------------------------------------------------
  // Hysteresis under a persistent low.

  /** A well-formed reading that is low but not extremely low. */
  predicate LowOnly(th: Thresholds, m: Measurement) {
    && th.Ordered()
    && ParseReading(th, m).Ok?
    && th.extremeLow <= ParseReading(th, m).value.value < th.low
  }

  /** Such a reading either sends the single low alert, logs it and stamps
      it, or does nothing at all. */
  lemma LowOnlyTick(reg: Registry, th: Thresholds, user: string, m: Measurement, now: int)
    requires LowOnly(th, m)
    ensures var rd := ParseReading(th, m).value;
            Tick(reg, th, user, Fetched(m), now, StoreUp)
              == if Due(reg, Low, now)
                 then Step(reg.Stamp(Low, now), [Message(rd.timestamp, user, Low, rd.value)], [AlertRecord(Low, rd)], None)
                 else Step(reg, [], [], None)
  {
    var rd := ParseReading(th, m).value;
    var v := rd.value;
    assert !Holds(th, ExtremeLow, v) && !Holds(th, ExtremeHigh, v) && Holds(th, Low, v) && !Holds(th, High, v);
    assert !IsNormal(th, v);
    TickMatchesReference(reg, th, user, m, now);
    var r := Tick(reg, th, user, Fetched(m), now, StoreUp);
    var fs := FiredConditions(reg, th, v, now, AllConditions);
    assert fs == if Due(reg, Low, now) then [Low] else [];
    var e := if Due(reg, Low, now) then reg.Stamp(Low, now) else reg;
    assert r.reg == e by {
      assert r.reg.extremeLow == r.reg.Get(ExtremeLow) == e.Get(ExtremeLow) == e.extremeLow;
      assert r.reg.extremeHigh == r.reg.Get(ExtremeHigh) == e.Get(ExtremeHigh) == e.extremeHigh;
      assert r.reg.low == r.reg.Get(Low) == e.Get(Low) == e.low;
      assert r.reg.high == r.reg.Get(High) == e.Get(High) == e.high;
    }
  }

  /** A well-formed low reading, extremely low or not. */
  predicate PersistentLow(th: Thresholds, m: Measurement) {
    ParseReading(th, m).Ok? && IsLow(th, ParseReading(th, m).value.value)
  }

  /** A low reading never resets, and only the Low block touches the Low
      slot: the low SMS goes out exactly when Low is due, and the slot is
      stamped exactly then, whatever the extreme-low block does. */
  lemma LowSlotTick(reg: Registry, th: Thresholds, user: string, m: Measurement, now: int)
    requires PersistentLow(th, m)
    ensures var r := Tick(reg, th, user, Fetched(m), now, StoreUp);
            && (SentLow(r) <==> Due(reg, Low, now))
            && r.reg.low == (if Due(reg, Low, now) then Some(now) else reg.low)
  {
    var v := ParseReading(th, m).value.value;
    var r := Tick(reg, th, user, Fetched(m), now, StoreUp);
    TickMatchesReference(reg, th, user, m, now);
    FiresIffDueAndHolds(reg, th, user, m, now, Low);
    assert !IsNormal(th, v);
    assert r.reg.low == r.reg.Get(Low);
  }

  /** One tick per minute, starting at minute `t`. */
  function EveryMinute(m: Measurement, t: int, n: nat): (ticks: seq<(Fetch, int)>)
    ensures |ticks| == n
    ensures forall i :: 0 <= i < n ==> ticks[i] == (Fetched(m), t + i)
  {
    seq(n, i requires 0 <= i < n => (Fetched(m), t + i))
  }

  /** The minute at which a persistent low first alerts, seen from minute `t`. */
  function FirstLowAlert(reg: Registry, t: int): int {
    if reg.low.None? || t > reg.low.value + Cooldown(Low) then t else reg.low.value + Cooldown(Low) + 1
  }

  /** Minute `x` is one of the minutes `f`, `f + 16`, `f + 32`, ... */
  predicate OnBeat(x: int, f: int) {
    x >= f && (x - f) % 16 == 0
  }

  predicate SentLow(s: Step) {
    Low in ConditionsOf(s.messages)
  }

  /** After the tick at minute `t`, the registry predicts the same alert
      minutes from `t + 1` on as it did before. */
  lemma NextFirstLowAlert(reg: Registry, t: int, x: int)
    requires t + 1 <= x
    ensures var reg' := if Due(reg, Low, t) then reg.Stamp(Low, t) else reg;
            OnBeat(x, FirstLowAlert(reg', t + 1)) <==> OnBeat(x, FirstLowAlert(reg, t))
  {
    var f := FirstLowAlert(reg, t);
    if Due(reg, Low, t) {
      var f' := FirstLowAlert(reg.Stamp(Low, t), t + 1);
      assert f == t && f' == t + 16;
      if x < t + 16 {
        assert (x - f) % 16 == x - t;
      } else {
        assert (x - f') % 16 == (x - f) % 16;
      }
    }
  }

  /** One step of a run as far as the Low slot is concerned: the low SMS
      goes out exactly when Low is due at minute `t`, and the slot is stamped
      exactly then. */
  predicate LowStep(reg: Registry, s: Step, t: int) {
    && (SentLow(s) <==> Due(reg, Low, t))
    && s.reg.low == (if Due(reg, Low, t) then Some(t) else reg.low)
  }

  /** Every step of `steps`, taken one per minute from minute `t`, is a
      `LowStep` from the registry the previous step left. */
  predicate LowChain(reg: Registry, t: int, steps: seq<Step>)
    decreases |steps|
  {
    steps == [] || (LowStep(reg, steps[0], t) && LowChain(steps[0].reg, t + 1, steps[1..]))
  }

  /** A persistent low read every minute makes such a chain. */
  lemma {:induction false} PersistentLowChain(reg: Registry, th: Thresholds, user: string, m: Measurement, t: int, n: nat)
    requires PersistentLow(th, m)
    ensures LowChain(reg, t, Trace(reg, th, user, EveryMinute(m, t, n), StoreUp))
    decreases n
  {
    if n > 0 {
      var ticks := EveryMinute(m, t, n);
      var s0 := Tick(reg, th, user, Fetched(m), t, StoreUp);
      assert ticks[1..] == EveryMinute(m, t + 1, n - 1);
      var rest := Trace(s0.reg, th, user, EveryMinute(m, t + 1, n - 1), StoreUp);
      assert Trace(reg, th, user, ticks, StoreUp) == [s0] + rest;
      LowSlotTick(reg, th, user, m, t);
      PersistentLowChain(s0.reg, th, user, m, t + 1, n - 1);
      assert ([s0] + rest)[1..] == rest;
    }
  }

  /** Along a chain the low SMS goes out exactly on the beat of the first due
      minute. */
  lemma {:induction false} LowChainOnBeat(reg: Registry, t: int, steps: seq<Step>)
    requires LowChain(reg, t, steps)
    ensures forall i :: 0 <= i < |steps| ==> (SentLow(steps[i]) <==> OnBeat(t + i, FirstLowAlert(reg, t)))
    decreases |steps|
  {
    if steps != [] {
      var rest := steps[1..];
      LowChainOnBeat(steps[0].reg, t + 1, rest);
      var f := FirstLowAlert(reg, t);
      var f' := FirstLowAlert(steps[0].reg, t + 1);
      forall i | 0 <= i < |steps|
        ensures SentLow(steps[i]) <==> OnBeat(t + i, f)
      {
        if i > 0 {
          assert steps[i] == rest[i - 1];
          assert SentLow(rest[i - 1]) <==> OnBeat(t + 1 + (i - 1), f');
          NextFirstLowAlert(reg, t, t + i);
          var reg' := if Due(reg, Low, t) then reg.Stamp(Low, t) else reg;
          assert f' == FirstLowAlert(reg', t + 1);
        }
      }
    }
  }

  /** Under a low reading every minute, the low alert is sent at its first
      due minute and then every 16 minutes: the 15-minute cooldown is
      compared strictly, so minute last+15 is still suppressed.  This holds
      for extremely low readings too, and for any threshold values. */
  lemma PersistentLowPeriod(reg: Registry, th: Thresholds, user: string, m: Measurement, t: int, n: nat)
    requires PersistentLow(th, m)
    ensures forall i :: 0 <= i < n ==>
              (SentLow(Trace(reg, th, user, EveryMinute(m, t, n), StoreUp)[i]) <==> OnBeat(t + i, FirstLowAlert(reg, t)))
  {
    PersistentLowChain(reg, th, user, m, t, n);
    LowChainOnBeat(reg, t, Trace(reg, th, user, EveryMinute(m, t, n), StoreUp));
  }

  /** Low readings every minute from minute 0 to minute 20 on a fresh
      registry: the low alert goes out at minutes 0 and 16 and at no other. */
  lemma LowEveryMinuteFor20Minutes(th: Thresholds, user: string, m: Measurement, n: nat)
    requires PersistentLow(th, m) && n <= 21
    ensures var steps := Trace(Empty, th, user, EveryMinute(m, 0, n), StoreUp);
            forall i :: 0 <= i < n ==> (SentLow(steps[i]) <==> i == 0 || i == 16)
  {
    PersistentLowPeriod(Empty, th, user, m, 0, n);
    assert FirstLowAlert(Empty, 0) == 0;
    forall i | 0 <= i < n {
      BeatsWithinTwentyMinutes(i);
    }
  }

  lemma BeatsWithinTwentyMinutes(i: int)
    requires 0 <= i < 21
    ensures OnBeat(i, 0) <==> i == 0 || i == 16
  {
    assert i % 16 == (if i < 16 then i else i - 16);
  }

  // ---------------------------------------------------------------------------
  // Failures.

  /** A failed fetch or a malformed measurement leaves the registry exactly as
      it was and emits nothing. */
  lemma FailedTickKeepsRegistry(reg: Registry, th: Thresholds, user: string, fetch: Fetch, now: int, store: Store)
    requires fetch.FetchFailed? || ParseReading(th, fetch.measurement).Err?
    ensures var r := Tick(reg, th, user, fetch, now, store);
            r.reg == reg && r.messages == [] && r.logs == [] && r.error.Some?
  {
  }

  /** Reference description of a tick whose `log_data` raises: the first
      firing condition's SMS goes out and ends the tick before its stamp;
      with nothing firing, a normal reading clears the registry and then
      fails to log, and an abnormal one ends quietly. */
  function StoreDownReference(reg: Registry, th: Thresholds, user: string, rd: Reading, now: int): Step {
    var fs := FiredConditions(reg, th, rd.value, now, AllConditions);
    if fs != [] then Step(reg, MessagesFor([fs[0]], user, rd), [], Some(StoreError))
    else if IsNormal(th, rd.value) then Step(Empty, [], [], Some(StoreError))
    else Step(reg, [], [], None)
  }

  /** With a failing store, the loop stops at the first firing condition of
      `conds`, after its SMS. */
  lemma {:induction false} AlertsStoreDownSendsFirst(reg: Registry, th: Thresholds, user: string, rd: Reading, now: int, conds: seq<Condition>)
    ensures var r := Alerts(reg, th, user, rd, now, StoreDown, conds);
            var fs := FiredConditions(reg, th, rd.value, now, conds);
            && r.messages == (if fs == [] then [] else MessagesFor([fs[0]], user, rd))
            && r.error == (if fs == [] then None else Some(StoreError))
    decreases |conds|
  {
    if conds != [] {
      if Fires(reg, th, conds[0], rd.value, now) {
        assert MessagesFor([conds[0]], user, rd) == [Message(rd.timestamp, user, conds[0], rd.value)];
      } else {
        AlertsStoreDownSendsFirst(reg, th, user, rd, now, conds[1..]);
      }
    }
  }

  /** A tick on a well-formed measurement with a failing store is the
      reference above. */
  lemma TickStoreDownMatchesReference(reg: Registry, th: Thresholds, user: string, m: Measurement, now: int)
    requires ParseReading(th, m).Ok?
    ensures Tick(reg, th, user, Fetched(m), now, StoreDown) == StoreDownReference(reg, th, user, ParseReading(th, m).value, now)
  {
    AlertsStoreDownSendsFirst(reg, th, user, ParseReading(th, m).value, now, AllConditions);
  }

  /** An abnormal reading leaves the registry alone when the store fails. */
  lemma StoreDownKeepsRegistry(reg: Registry, th: Thresholds, user: string, m: Measurement, now: int)
    requires ParseReading(th, m).Ok? && !IsNormal(th, ParseReading(th, m).value.value)
    ensures var r := Tick(reg, th, user, Fetched(m), now, StoreDown);
            r == StoreDownReference(reg, th, user, ParseReading(th, m).value, now) && r.reg == reg
  {
    TickStoreDownMatchesReference(reg, th, user, m, now);
  }

  /** When every tick of `ticks` taken from `reg` leaves `reg` in place, the
      run is the sequence of those single ticks: the registry never moves. */
  lemma {:induction false} TraceOfFixedTicks(reg: Registry, th: Thresholds, user: string, ticks: seq<(Fetch, int)>, store: Store,
                                             f: nat -> Step)
    requires forall i :: 0 <= i < |ticks| ==> Tick(reg, th, user, ticks[i].0, ticks[i].1, store) == f(i)
    requires forall i :: 0 <= i < |ticks| ==> f(i).reg == reg
    ensures forall i :: 0 <= i < |ticks| ==> Trace(reg, th, user, ticks, store)[i] == f(i)
    decreases |ticks|
  {
    if ticks != [] {
      var tail := ticks[1..];
      var g := (i: nat) => f(i + 1);
      forall i | 0 <= i < |tail|
        ensures Tick(reg, th, user, tail[i].0, tail[i].1, store) == g(i) && g(i).reg == reg
      {
        assert tail[i] == ticks[i + 1];
      }
      TraceOfFixedTicks(reg, th, user, tail, store, g);
      var rest := Trace(reg, th, user, tail, store);
      assert Trace(reg, th, user, ticks, store) == [f(0)] + rest;
      forall i | 1 <= i < |ticks|
        ensures ([f(0)] + rest)[i] == f(i)
      {
        assert ([f(0)] + rest)[i] == rest[i - 1] == g(i - 1);
      }
    }
  }

  /** A tick that fetches `m`, seen through the pair of a tick schedule. */
  lemma StoreDownTickOf(reg: Registry, th: Thresholds, user: string, m: Measurement, tk: (Fetch, int))
    requires ParseReading(th, m).Ok? && !IsNormal(th, ParseReading(th, m).value.value)
    requires tk.0 == Fetched(m)
    ensures var r := Tick(reg, th, user, tk.0, tk.1, StoreDown);
            r == StoreDownReference(reg, th, user, ParseReading(th, m).value, tk.1) && r.reg == reg
  {
    StoreDownKeepsRegistry(reg, th, user, m, tk.1);
  }

  /** With a failing store and the same abnormal reading at every tick, on any
      schedule, no stamp is ever written: every tick judges against the
      starting registry and re-sends the SMS of the first condition that fires
      at its minute. */
  lemma StoreDownRepeatsFirstAlert(reg: Registry, th: Thresholds, user: string, m: Measurement, ticks: seq<(Fetch, int)>)
    requires ParseReading(th, m).Ok? && !IsNormal(th, ParseReading(th, m).value.value)
    requires forall i :: 0 <= i < |ticks| ==> ticks[i].0 == Fetched(m)
    ensures forall i :: 0 <= i < |ticks| ==>
              Trace(reg, th, user, ticks, StoreDown)[i] == StoreDownReference(reg, th, user, ParseReading(th, m).value, ticks[i].1)
  {
    var f := (i: nat) => if i < |ticks| then StoreDownReference(reg, th, user, ParseReading(th, m).value, ticks[i].1) else Step(reg, [], [], None);
    forall i | 0 <= i < |ticks|
      ensures Tick(reg, th, user, ticks[i].0, ticks[i].1, StoreDown) == f(i) && f(i).reg == reg
    {
      StoreDownTickOf(reg, th, user, m, ticks[i]);
    }
    TraceOfFixedTicks(reg, th, user, ticks, StoreDown, f);
  }

  /** When `log_data` raises, the alert's SMS has already gone out but the
      stamp is never written, so a persistent low re-sends the low SMS at
      every tick, with no rate limit at all. */
  lemma {:induction false} StoreDownRepeatsLowAlert(reg: Registry, th: Thresholds, user: string, m: Measurement, t: int, n: nat)
    requires LowOnly(th, m)
    requires reg.low.None?
    ensures forall i :: 0 <= i < n ==>
              Trace(reg, th, user, EveryMinute(m, t, n), StoreDown)[i] == Step(reg, [Message(ParseReading(th, m).value.timestamp, user, Low, ParseReading(th, m).value.value)], [], Some(StoreError))
    decreases n
  {
    if n > 0 {
      var ticks := EveryMinute(m, t, n);
      assert ticks[1..] == EveryMinute(m, t + 1, n - 1);
      var rd := ParseReading(th, m).value;
      var s0 := Tick(reg, th, user, Fetched(m), t, StoreDown);
      assert s0 == Step(reg, [Message(rd.timestamp, user, Low, rd.value)], [], Some(StoreError));
      StoreDownRepeatsLowAlert(reg, th, user, m, t + 1, n - 1);
      var rest := Trace(reg, th, user, EveryMinute(m, t + 1, n - 1), StoreDown);
      assert Trace(reg, th, user, ticks, StoreDown) == [s0] + rest;
    }
  }

  // ---------------------------------------------------------------------------
  // The SMS text: the condition can be read back from the message.

  predicate EndsWith(s: string, suffix: string) {
    |suffix| <= |s| && s[|s| - |suffix|..] == suffix
  }

  /** Which condition's suggested action ends the text, if any. */
  function ConditionOfText(s: string): Option<Condition> {
    if EndsWith(s, Action(ExtremeLow)) then Some(ExtremeLow)
    else if EndsWith(s, Action(ExtremeHigh)) then Some(ExtremeHigh)
    else if EndsWith(s, Action(Low)) then Some(Low)
    else if EndsWith(s, Action(High)) then Some(High)
    else None
  }

  /** Two suffixes of one string: the shorter is a suffix of the longer. */
  lemma EndsWithBoth(s: string, a: string, b: string)
    requires EndsWith(s, a) && EndsWith(s, b)
    ensures EndsWith(a, b) || EndsWith(b, a)
  {
    if |b| <= |a| {
      assert a[|a| - |b|..] == s[|s| - |b|..];
    } else {
      assert b[|b| - |a|..] == s[|s| - |a|..];
    }
  }

  /** One differing character, counted from the end, rules out a suffix. */
  lemma NotSuffixAt(a: string, b: string, j: nat)
    requires |b| <= |a| && j < |b|
    requires a[|a| - |b| + j] != b[j]
    ensures !EndsWith(a, b)
  {
  }

  lemma ExtremeLowNotEndingInExtremeHigh()
    ensures !EndsWith(Action(ExtremeLow), Action(ExtremeHigh))
  {
    NotSuffixAt(Action(ExtremeLow), Action(ExtremeHigh), 51);
  }

  lemma ExtremeLowNotEndingInLow()
    ensures !EndsWith(Action(ExtremeLow), Action(Low))
  {
    NotSuffixAt(Action(ExtremeLow), Action(Low), 32);
  }

  lemma ExtremeLowNotEndingInHigh()
    ensures !EndsWith(Action(ExtremeLow), Action(High))
  {
    NotSuffixAt(Action(ExtremeLow), Action(High), 43);
  }

  lemma ExtremeHighNotEndingInHigh()
    ensures !EndsWith(Action(ExtremeHigh), Action(High))
  {
    NotSuffixAt(Action(ExtremeHigh), Action(High), 5);
  }

  lemma LowNotEndingInExtremeHigh()
    ensures !EndsWith(Action(Low), Action(ExtremeHigh))
  {
    NotSuffixAt(Action(Low), Action(ExtremeHigh), 51);
  }

  lemma LowNotEndingInHigh()
    ensures !EndsWith(Action(Low), Action(High))
  {
    NotSuffixAt(Action(Low), Action(High), 43);
  }

  lemma ExtremeLowActionSuffixFree(d: Condition)
    requires d != ExtremeLow
    ensures !EndsWith(Action(ExtremeLow), Action(d))
  {
    match d
    case ExtremeHigh => ExtremeLowNotEndingInExtremeHigh();
    case Low => ExtremeLowNotEndingInLow();
    case High => ExtremeLowNotEndingInHigh();
  }

  lemma ExtremeHighActionSuffixFree(d: Condition)
    requires d != ExtremeHigh
    ensures !EndsWith(Action(ExtremeHigh), Action(d))
  {
    if d == High {
      ExtremeHighNotEndingInHigh();
    } else {
      assert |Action(ExtremeHigh)| < |Action(d)|;
    }
  }

  lemma LowActionSuffixFree(d: Condition)
    requires d != Low
    ensures !EndsWith(Action(Low), Action(d))
  {
    match d
    case ExtremeLow => assert |Action(Low)| < |Action(d)|;
    case ExtremeHigh => LowNotEndingInExtremeHigh();
    case High => LowNotEndingInHigh();
  }

  lemma HighActionSuffixFree(d: Condition)
    requires d != High
    ensures !EndsWith(Action(High), Action(d))
  {
    assert |Action(High)| < |Action(d)|;
  }

  /** No suggested action is a suffix of another. */
  lemma ActionsSuffixFree(c: Condition, d: Condition)
    requires c != d
    ensures !EndsWith(Action(c), Action(d))
  {
    match c
    case ExtremeLow => ExtremeLowActionSuffixFree(d);
    case ExtremeHigh => ExtremeHighActionSuffixFree(d);
    case Low => LowActionSuffixFree(d);
    case High => HighActionSuffixFree(d);
  }

  /** A text that ends with the action of `c` ends with no other action. */
  lemma OtherActionAbsent(s: string, c: Condition, d: Condition)
    requires c != d && EndsWith(s, Action(c))
    ensures !EndsWith(s, Action(d))
  {
    if EndsWith(s, Action(d)) {
      EndsWithBoth(s, Action(c), Action(d));
      ActionsSuffixFree(c, d);
      ActionsSuffixFree(d, c);
    }
  }

  /** A text that ends with the action of `c` is read back as `c`. */
  lemma ConditionOfActionText(s: string, c: Condition)
    requires EndsWith(s, Action(c))
    ensures ConditionOfText(s) == Some(c)
  {
    if c != ExtremeLow {
      OtherActionAbsent(s, c, ExtremeLow);
    }
    if c != ExtremeHigh {
      OtherActionAbsent(s, c, ExtremeHigh);
    }
    if c != Low {
      OtherActionAbsent(s, c, Low);
    }
  }

  /** The rendered SMS names its condition unambiguously: reading the
      suggested action back recovers the condition, for every user name,
      timestamp, value and rendering. */
  lemma ConditionRoundTrip(msg: Message, show: Field -> string)
    ensures ConditionOfText(SmsText(msg, show)) == Some(msg.condition)
  {
    ConditionOfActionText(SmsText(msg, show), msg.condition);
  }
}

=== FILE: summaries.dfy ===
/** The grouped summaries of `src/data_analysis.py`: `time_based_summary`
    groups rows by period of the day, `daily_summary` by date.  pandas'
    `groupby` visits the keys that occur, in sorted key order, and keeps the
    rows of each group in table order. */
module Summaries {
  import opened Wrappers
  import opened Analysis
  import opened Table
  import opened DataAnalysis

  /** The rows whose key is `k`, in table order. */
  function Select<K(==)>(rows: seq<Row>, key: Row -> K, k: K): (g: seq<Row>)
    ensures |g| <= |rows|
    ensures forall r :: r in g <==> r in rows && key(r) == k
  {
    if rows == [] then []
    else
      var front := Select(rows[..|rows| - 1], key, k);
      var last := rows[|rows| - 1];
      assert forall r :: r in rows <==> r in rows[..|rows| - 1] || r == last by {
        assert rows == rows[..|rows| - 1] + [last];
      }
      if key(last) == k then front + [last] else front
  }

  /** A group keeps every copy of a row with its key. */
  lemma {:induction false} SelectKeepsEveryCopy<K>(rows: seq<Row>, key: Row -> K, k: K)
    ensures forall r :: multiset(Select(rows, key, k))[r] == if key(r) == k then multiset(rows)[r] else 0
  {
    if rows != [] {
      var before := rows[..|rows| - 1];
      var last := rows[|rows| - 1];
      var front := Select(before, key, k);
      var g := Select(rows, key, k);
      SelectKeepsEveryCopy(before, key, k);
      assert rows == before + [last];
      if key(last) == k {
        assert g == front + [last];
      } else {
        assert g == front;
      }
      forall r ensures multiset(g)[r] == if key(r) == k then multiset(rows)[r] else 0 {
        assert multiset(rows)[r] == multiset(before)[r] + multiset([last])[r];
        if key(last) == k {
          assert multiset(g)[r] == multiset(front)[r] + multiset([last])[r];
        }
      }
    }
  }

  /** A group keeps its rows in table order. */
  lemma {:induction false} SelectInTableOrder<K>(rows: seq<Row>, key: Row -> K, k: K)
    ensures IsSubsequence(Select(rows, key, k), rows)
  {
    if rows != [] {
      var before := rows[..|rows| - 1];
      var last := rows[|rows| - 1];
      var front := Select(before, key, k);
      SelectInTableOrder(before, key, k);
      if key(last) == k {
        assert (front + [last])[..|front + [last]| - 1] == front;
      } else {
        assert rows == before + [last];
        SubsequenceOfLonger(front, before, last);
      }
    }
  }

  /** One line of a summary table; `average` and `timeInRange` are not
      rounded. */
  datatype GroupSummary<K> = GroupSummary(key: K, average: real, highs: nat, lows: nat,
                                          timeInRange: real, total: nat)

  function Summarize<K>(k: K, group: seq<Row>, th: Thresholds): GroupSummary<K>
    requires |group| > 0
  {
    GroupSummary(k, Average(group), CountLabel(group, "High"), CountLabel(group, "Low"),
                 TimeInRange(group, th), |group|)
  }

  /** The keys of the summary lines, in line order. */
  function KeysOf<K>(ss: seq<GroupSummary<K>>): (ks: seq<K>)
    ensures |ks| == |ss|
    ensures forall i :: 0 <= i < |ss| ==> ks[i] == ss[i].key
  {
    seq(|ss|, i requires 0 <= i < |ss| => ss[i].key)
  }

  /** The summary lines of the non-empty groups, in the order of `keys`. */
  function SummaryOver<K(==)>(rows: seq<Row>, key: Row -> K, keys: seq<K>, th: Thresholds): (ss: seq<GroupSummary<K>>)
    ensures |ss| <= |keys|
    ensures forall i :: 0 <= i < |ss| ==> ss[i].total > 0 && ss[i].key in keys
    decreases |keys|
  {
    if keys == [] then []
    else
      var g := Select(rows, key, keys[0]);
      var rest := SummaryOver(rows, key, keys[1..], th);
      if |g| == 0 then rest else [Summarize(keys[0], g, th)] + rest
  }

  /** Each summary line summarises exactly the rows of its key. */
  lemma {:induction false} SummaryLinesMatchGroups<K>(rows: seq<Row>, key: Row -> K, keys: seq<K>, th: Thresholds)
    ensures forall i :: 0 <= i < |SummaryOver(rows, key, keys, th)| ==>
              var k := SummaryOver(rows, key, keys, th)[i].key;
              |Select(rows, key, k)| > 0 && SummaryOver(rows, key, keys, th)[i] == Summarize(k, Select(rows, key, k), th)
    decreases |keys|
  {
    if keys != [] {
      SummaryLinesMatchGroups(rows, key, keys[1..], th);
      SummaryOverCons(rows, key, keys, th);
      var ss := SummaryOver(rows, key, keys, th);
      var rest := SummaryOver(rows, key, keys[1..], th);
      var g := Select(rows, key, keys[0]);
      var skip := if |g| == 0 then 0 else 1;
      forall i | 0 <= i < |ss|
        ensures var k := ss[i].key; |Select(rows, key, k)| > 0 && ss[i] == Summarize(k, Select(rows, key, k), th)
      {
        if i >= skip {
          assert ss[i] == rest[i - skip];
        }
      }
    }
  }

  /** One step of `SummaryOver`: the first key's line, if its group has rows,
      then the lines of the remaining keys. */
  lemma SummaryOverCons<K>(rows: seq<Row>, key: Row -> K, keys: seq<K>, th: Thresholds)
    requires keys != []
    ensures var g := Select(rows, key, keys[0]);
            SummaryOver(rows, key, keys, th)
              == (if |g| == 0 then [] else [Summarize(keys[0], g, th)]) + SummaryOver(rows, key, keys[1..], th)
  {
  }

  /** The same step, on the keys of the lines only. */
  lemma KeysOfSummaryOverCons<K>(rows: seq<Row>, key: Row -> K, keys: seq<K>, th: Thresholds)
    requires keys != []
    ensures KeysOf(SummaryOver(rows, key, keys, th))
              == (if |Select(rows, key, keys[0])| == 0 then [] else [keys[0]]) + KeysOf(SummaryOver(rows, key, keys[1..], th))
  {
    SummaryOverCons(rows, key, keys, th);
    var g := Select(rows, key, keys[0]);
    var rest := SummaryOver(rows, key, keys[1..], th);
    if |g| > 0 {
      var line := Summarize(keys[0], g, th);
      assert line.key == keys[0];
      assert KeysOf([line] + rest) == [keys[0]] + KeysOf(rest);
    } else {
      assert KeysOf(rest) == [] + KeysOf(rest);
    }
  }

  /** The listed keys whose group has rows, in the order of `keys`. */
  function LineKeys<K(==)>(rows: seq<Row>, key: Row -> K, keys: seq<K>): seq<K>
    decreases |keys|
  {
    if keys == [] then []
    else (if |Select(rows, key, keys[0])| == 0 then [] else [keys[0]]) + LineKeys(rows, key, keys[1..])
  }

  lemma {:induction false} KeysOfSummaryOver<K>(rows: seq<Row>, key: Row -> K, keys: seq<K>, th: Thresholds)
    ensures KeysOf(SummaryOver(rows, key, keys, th)) == LineKeys(rows, key, keys)
    decreases |keys|
  {
    if keys != [] {
      KeysOfSummaryOverCons(rows, key, keys, th);
      KeysOfSummaryOver(rows, key, keys[1..], th);
    }
  }

  lemma {:induction false} LineKeysCover<K>(rows: seq<Row>, key: Row -> K, keys: seq<K>, k: K)
    requires k in keys && |Select(rows, key, k)| > 0
    ensures k in LineKeys(rows, key, keys)
    decreases |keys|
  {
    var rest := LineKeys(rows, key, keys[1..]);
    if k == keys[0] {
      assert LineKeys(rows, key, keys)[0] == k;
    } else {
      assert keys == [keys[0]] + keys[1..];
      LineKeysCover(rows, key, keys[1..], k);
      var prefix := if |Select(rows, key, keys[0])| == 0 then [] else [keys[0]];
      var j :| 0 <= j < |rest| && rest[j] == k;
      assert LineKeys(rows, key, keys)[|prefix| + j] == k;
    }
  }

  lemma {:induction false} LineKeysInOrder<K>(rows: seq<Row>, key: Row -> K, keys: seq<K>)
    ensures IsSubsequence(LineKeys(rows, key, keys), keys)
    decreases |keys|
  {
    if keys != [] {
      LineKeysInOrder(rows, key, keys[1..]);
      var rest := LineKeys(rows, key, keys[1..]);
      assert keys == [keys[0]] + keys[1..];
      if |Select(rows, key, keys[0])| == 0 {
        assert [] + rest == rest;
        SubsequenceOfCons(keys[0], rest, keys[1..]);
      } else {
        SubsequenceCons(keys[0], rest, keys[1..]);
      }
    }
  }

  /** Every listed key that has rows gets a summary line. */
  lemma EveryGroupHasLine<K>(rows: seq<Row>, key: Row -> K, keys: seq<K>, th: Thresholds, k: K)
    requires k in keys && |Select(rows, key, k)| > 0
    ensures k in KeysOf(SummaryOver(rows, key, keys, th))
  {
    KeysOfSummaryOver(rows, key, keys, th);
    LineKeysCover(rows, key, keys, k);
  }

  /** The summary lines follow the order of `keys`. */
  lemma SummaryInKeyOrder<K>(rows: seq<Row>, key: Row -> K, keys: seq<K>, th: Thresholds)
    ensures IsSubsequence(KeysOf(SummaryOver(rows, key, keys, th)), keys)
  {
    KeysOfSummaryOver(rows, key, keys, th);
    LineKeysInOrder(rows, key, keys);
  }

  /** The sorted order in which pandas lists the period names. */
  const PeriodKeys: seq<Period> := [Afternoon, Evening, Morning, Night]

  /** `time_based_summary`: one line per period that occurs, in the order
      Afternoon, Evening, Morning, Night, each summarising exactly the rows of
      its period. */
  function TimeBasedSummary(rows: seq<Row>, th: Thresholds): (ss: seq<GroupSummary<Period>>)
    ensures IsSubsequence(KeysOf(ss), PeriodKeys)
    ensures forall r :: r in rows ==> PeriodOfRow(r) in KeysOf(ss)
    ensures forall i :: 0 <= i < |ss| ==>
              |Select(rows, PeriodOfRow, ss[i].key)| > 0
              && ss[i] == Summarize(ss[i].key, Select(rows, PeriodOfRow, ss[i].key), th)
  {
    PeriodKeysComplete();
    EveryRowHasLine(rows, PeriodOfRow, PeriodKeys, th);
    SummaryLinesMatchGroups(rows, PeriodOfRow, PeriodKeys, th);
    SummaryInKeyOrder(rows, PeriodOfRow, PeriodKeys, th);
    SummaryOver(rows, PeriodOfRow, PeriodKeys, th)
  }

  /** The listed order is the sorted order of the period names that
      `categorize_time_of_day` returns: their first letters already ascend. */
  lemma PeriodKeysInNameOrder()
    ensures forall i, j :: 0 <= i < j < |PeriodKeys| ==> PeriodName(PeriodKeys[i])[0] < PeriodName(PeriodKeys[j])[0]
  {
    forall i, j | 0 <= i < j < |PeriodKeys|
      ensures PeriodName(PeriodKeys[i])[0] < PeriodName(PeriodKeys[j])[0]
    {
      assert PeriodName(PeriodKeys[0])[0] == 'A' && PeriodName(PeriodKeys[1])[0] == 'E';
      assert PeriodName(PeriodKeys[2])[0] == 'M' && PeriodName(PeriodKeys[3])[0] == 'N';
    }
  }

  lemma PeriodKeysComplete()
    ensures forall p: Period :: p in PeriodKeys
  {
    forall p: Period ensures p in PeriodKeys {
      match p
      case Afternoon => assert PeriodKeys[0] == p;
      case Evening => assert PeriodKeys[1] == p;
      case Morning => assert PeriodKeys[2] == p;
      case Night => assert PeriodKeys[3] == p;
    }
  }

  /** A row whose key is listed has a summary line for its key. */
  lemma EveryRowHasLine<K>(rows: seq<Row>, key: Row -> K, keys: seq<K>, th: Thresholds)
    requires forall r :: r in rows ==> key(r) in keys
    ensures forall r :: r in rows ==> key(r) in KeysOf(SummaryOver(rows, key, keys, th))
  {
    forall r | r in rows ensures key(r) in KeysOf(SummaryOver(rows, key, keys, th)) {
      assert r in Select(rows, key, key(r));
      EveryGroupHasLine(rows, key, keys, th, key(r));
    }
  }

  function DateOfRow(r: Row): int {
    DateOf(r.timestamp)
  }

  function MinDate(rows: seq<Row>): (d: int)
    requires |rows| > 0
    ensures forall i :: 0 <= i < |rows| ==> d <= DateOfRow(rows[i])
    ensures exists i :: 0 <= i < |rows| && d == DateOfRow(rows[i])
  {
    if |rows| == 1 then DateOfRow(rows[0])
    else
      var m := MinDate(rows[1..]);
      assert forall i :: 1 <= i < |rows| ==> rows[i] == rows[1..][i - 1];
      if DateOfRow(rows[0]) <= m then DateOfRow(rows[0]) else m
  }

  function MaxDate(rows: seq<Row>): (d: int)
    requires |rows| > 0
    ensures forall i :: 0 <= i < |rows| ==> DateOfRow(rows[i]) <= d
    ensures exists i :: 0 <= i < |rows| && d == DateOfRow(rows[i])
  {
    if |rows| == 1 then DateOfRow(rows[0])
    else
      var m := MaxDate(rows[1..]);
      assert forall i :: 1 <= i < |rows| ==> rows[i] == rows[1..][i - 1];
      if DateOfRow(rows[0]) >= m then DateOfRow(rows[0]) else m
  }

  /** Every day from `lo` to `hi`, ascending. */
  function Days(lo: int, hi: int): (ds: seq<int>)
    ensures forall d :: d in ds <==> lo <= d <= hi
    ensures forall i, j :: 0 <= i < j < |ds| ==> ds[i] < ds[j]
    decreases hi - lo
  {
    if hi < lo then []
    else
      var tail := Days(lo + 1, hi);
      assert forall j :: 0 <= j < |tail| ==> tail[j] in tail;
      [lo] + tail
  }

  /** A subsequence of an ascending sequence is ascending. */
  lemma {:induction false} SubsequenceAscending(a: seq<int>, b: seq<int>)
    requires IsSubsequence(a, b)
    requires forall i, j :: 0 <= i < j < |b| ==> b[i] < b[j]
    ensures forall i, j :: 0 <= i < j < |a| ==> a[i] < a[j]
    decreases |b|
  {
    if a != [] {
      var a', b' := a[..|a| - 1], b[..|b| - 1];
      if a[|a| - 1] == b[|b| - 1] && IsSubsequence(a', b') {
        SubsequenceAscending(a', b');
        SubsequenceMembers(a', b');
        forall i | 0 <= i < |a'| ensures a[i] < a[|a| - 1] {
          assert a[i] == a'[i] && a'[i] in b';
        }
      } else {
        SubsequenceAscending(a, b');
      }
    }
  }

  /** Every date of the table lies between its first and its last day. */
  lemma DatesListed(rows: seq<Row>)
    requires |rows| > 0
    ensures forall r :: r in rows ==> DateOfRow(r) in Days(MinDate(rows), MaxDate(rows))
  {
    forall r | r in rows ensures DateOfRow(r) in Days(MinDate(rows), MaxDate(rows)) {
      var i :| 0 <= i < |rows| && rows[i] == r;
      assert MinDate(rows) <= DateOfRow(rows[i]) <= MaxDate(rows);
    }
  }

  /** `daily_summary`: one line per date that occurs, in ascending date
      order, each summarising exactly the rows of its date.  The dates between
      the first and the last day of the table are visited, and days without
      rows are skipped. */
  function DailySummary(rows: seq<Row>, th: Thresholds): (ss: seq<GroupSummary<int>>)
    ensures forall i, j :: 0 <= i < j < |ss| ==> ss[i].key < ss[j].key
    ensures forall r :: r in rows ==> DateOfRow(r) in KeysOf(ss)
    ensures forall i :: 0 <= i < |ss| ==>
              |Select(rows, DateOfRow, ss[i].key)| > 0
              && ss[i] == Summarize(ss[i].key, Select(rows, DateOfRow, ss[i].key), th)
  {
    if rows == [] then []
    else
      var ds := Days(MinDate(rows), MaxDate(rows));
      DatesListed(rows);
      EveryRowHasLine(rows, DateOfRow, ds, th);
      SummaryLinesMatchGroups(rows, DateOfRow, ds, th);
      SummaryInKeyOrder(rows, DateOfRow, ds, th);
      SubsequenceAscending(KeysOf(SummaryOver(rows, DateOfRow, ds, th)), ds);
      SummaryOver(rows, DateOfRow, ds, th)
  }

  // ---------------------------------------------------------------------------
  // The groups partition the table.

  /** Sum of a per-row weight. */
  function Weight(rows: seq<Row>, w: Row -> nat): nat {
    if rows == [] then 0 else Weight(rows[..|rows| - 1], w) + w(rows[|rows| - 1])
  }

  function One(): Row -> nat {
    (r: Row) => 1
  }

  function Tagged(tag: string): Row -> nat {
    (r: Row) => if r.alertType == Some(tag) then 1 else 0
  }

  lemma {:induction false} WeightOfOne(rows: seq<Row>)
    ensures Weight(rows, One()) == |rows|
  {
    if rows != [] {
      WeightOfOne(rows[..|rows| - 1]);
    }
  }

  lemma {:induction false} WeightOfTagged(rows: seq<Row>, tag: string)
    ensures Weight(rows, Tagged(tag)) == CountLabel(rows, tag)
  {
    if rows != [] {
      WeightOfTagged(rows[..|rows| - 1], tag);
    }
  }

  /** The weight of every group, one group per key. */
  function GroupWeights<K(==)>(rows: seq<Row>, key: Row -> K, keys: seq<K>, w: Row -> nat): nat
    decreases |keys|
  {
    if keys == [] then 0 else Weight(Select(rows, key, keys[0]), w) + GroupWeights(rows, key, keys[1..], w)
  }

  /** How often `k` occurs in `keys`, times `x`. */
  function Hits<K(==)>(keys: seq<K>, k: K, x: nat): nat
    decreases |keys|
  {
    if keys == [] then 0 else (if keys[0] == k then x else 0) + Hits(keys[1..], k, x)
  }

  lemma {:induction false} HitsOnce<K>(keys: seq<K>, k: K, x: nat)
    requires k in keys
    requires forall i, j :: 0 <= i < j < |keys| ==> keys[i] != keys[j]
    ensures Hits(keys, k, x) == x
    decreases |keys|
  {
    if keys[0] == k {
      HitsNone(keys[1..], k, x);
    } else {
      HitsOnce(keys[1..], k, x);
    }
  }

  lemma {:induction false} HitsNone<K>(keys: seq<K>, k: K, x: nat)
    requires k !in keys
    ensures Hits(keys, k, x) == 0
    decreases |keys|
  {
    if keys != [] {
      HitsNone(keys[1..], k, x);
    }
  }

  lemma {:induction false} GroupWeightsSnoc<K>(rows: seq<Row>, last: Row, key: Row -> K, keys: seq<K>, w: Row -> nat)
    ensures GroupWeights(rows + [last], key, keys, w) == GroupWeights(rows, key, keys, w) + Hits(keys, key(last), w(last))
    decreases |keys|
  {
    if keys != [] {
      var all := rows + [last];
      assert all[..|all| - 1] == rows;
      var g := Select(rows, key, keys[0]);
      if key(last) == keys[0] {
        assert (g + [last])[..|g|] == g;
      }
      GroupWeightsSnoc(rows, last, key, keys[1..], w);
    }
  }

  /** Summing a weight group by group gives the whole-table weight, when every
      row's key is listed exactly once. */
  lemma {:induction false} GroupsPartitionWeight<K>(rows: seq<Row>, key: Row -> K, keys: seq<K>, w: Row -> nat)
    requires forall i :: 0 <= i < |rows| ==> key(rows[i]) in keys
    requires forall i, j :: 0 <= i < j < |keys| ==> keys[i] != keys[j]
    ensures GroupWeights(rows, key, keys, w) == Weight(rows, w)
  {
    if rows == [] {
      GroupWeightsOfEmpty(key, keys, w);
    } else {
      var front := rows[..|rows| - 1];
      var last := rows[|rows| - 1];
      assert rows == front + [last];
      assert forall i :: 0 <= i < |front| ==> front[i] == rows[i];
      GroupsPartitionWeight(front, key, keys, w);
      GroupWeightsSnoc(front, last, key, keys, w);
      HitsOnce(keys, key(last), w(last));
    }
  }

  lemma {:induction false} GroupWeightsOfEmpty<K>(key: Row -> K, keys: seq<K>, w: Row -> nat)
    ensures GroupWeights([], key, keys, w) == 0
    decreases |keys|
  {
    if keys != [] {
      GroupWeightsOfEmpty(key, keys[1..], w);
    }
  }

  function SumTotals<K>(ss: seq<GroupSummary<K>>): nat {
    if ss == [] then 0 else ss[0].total + SumTotals(ss[1..])
  }

  function SumHighs<K>(ss: seq<GroupSummary<K>>): nat {
    if ss == [] then 0 else ss[0].highs + SumHighs(ss[1..])
  }

  function SumLows<K>(ss: seq<GroupSummary<K>>): nat {
    if ss == [] then 0 else ss[0].lows + SumLows(ss[1..])
  }

  /** The summary lines carry the group weights: skipped groups are empty. */
  lemma {:induction false} SummaryCarriesGroupWeights<K>(rows: seq<Row>, key: Row -> K, keys: seq<K>, th: Thresholds)
    ensures var ss := SummaryOver(rows, key, keys, th);
            && SumTotals(ss) == GroupWeights(rows, key, keys, One())
            && SumHighs(ss) == GroupWeights(rows, key, keys, Tagged("High"))
            && SumLows(ss) == GroupWeights(rows, key, keys, Tagged("Low"))
    decreases |keys|
  {
    if keys != [] {
      var g := Select(rows, key, keys[0]);
      SummaryCarriesGroupWeights(rows, key, keys[1..], th);
      WeightOfOne(g);
      WeightOfTagged(g, "High");
      WeightOfTagged(g, "Low");
      var rest := SummaryOver(rows, key, keys[1..], th);
      if |g| > 0 {
        var ss := [Summarize(keys[0], g, th)] + rest;
        assert ss[1..] == rest;
      }
    }
  }

  /** Grouping by any key listed once per occurring value loses and
      duplicates nothing: the group sizes add up to the table size, and the
      per-group highs and lows add up to the whole-table counts. */
  lemma SummaryPartitions<K>(rows: seq<Row>, key: Row -> K, keys: seq<K>, th: Thresholds)
    requires forall i :: 0 <= i < |rows| ==> key(rows[i]) in keys
    requires forall i, j :: 0 <= i < j < |keys| ==> keys[i] != keys[j]
    ensures var ss := SummaryOver(rows, key, keys, th);
            && SumTotals(ss) == |rows|
            && SumHighs(ss) == CountLabel(rows, "High")
            && SumLows(ss) == CountLabel(rows, "Low")
  {
    SummaryCarriesGroupWeights(rows, key, keys, th);
    GroupsPartitionWeight(rows, key, keys, One());
    GroupsPartitionWeight(rows, key, keys, Tagged("High"));
    GroupsPartitionWeight(rows, key, keys, Tagged("Low"));
    WeightOfOne(rows);
    WeightOfTagged(rows, "High");
    WeightOfTagged(rows, "Low");
  }

  /** `time_based_summary` partitions the table. */
  lemma TimeBasedSummaryPartitions(rows: seq<Row>, th: Thresholds)
    ensures var ss := TimeBasedSummary(rows, th);
            && SumTotals(ss) == |rows|
            && SumHighs(ss) == CountLabel(rows, "High")
            && SumLows(ss) == CountLabel(rows, "Low")
  {
    PeriodGroupsPartition(rows, th);
    assert TimeBasedSummary(rows, th) == SummaryOver(rows, PeriodOfRow, PeriodKeys, th);
  }

  lemma PeriodGroupsPartition(rows: seq<Row>, th: Thresholds)
    ensures var ss := SummaryOver(rows, PeriodOfRow, PeriodKeys, th);
            && SumTotals(ss) == |rows|
            && SumHighs(ss) == CountLabel(rows, "High")
            && SumLows(ss) == CountLabel(rows, "Low")
  {
    PeriodKeysComplete();
    assert forall i :: 0 <= i < |rows| ==> PeriodOfRow(rows[i]) in PeriodKeys;
    assert forall i, j :: 0 <= i < j < |PeriodKeys| ==> PeriodKeys[i] != PeriodKeys[j];
    SummaryPartitions(rows, PeriodOfRow, PeriodKeys, th);
  }

  /** `daily_summary` partitions the table. */
  lemma DailySummaryPartitions(rows: seq<Row>, th: Thresholds)
    ensures var ss := DailySummary(rows, th);
            && SumTotals(ss) == |rows|
            && SumHighs(ss) == CountLabel(rows, "High")
            && SumLows(ss) == CountLabel(rows, "Low")
  {
    if rows != [] {
      var ds := Days(MinDate(rows), MaxDate(rows));
      assert DailySummary(rows, th) == SummaryOver(rows, DateOfRow, ds, th);
      DatesListed(rows);
      assert forall i :: 0 <= i < |rows| ==> DateOfRow(rows[i]) in ds by {
        assert forall i :: 0 <= i < |rows| ==> rows[i] in rows;
      }
      SummaryPartitions(rows, DateOfRow, ds, th);
    }
  }
}

=== FILE: table.dfy ===
/** The `blood_sugar_log` table as the analysis code sees it: a sequence of
    rows sorted by timestamp.  Timestamps are integer minutes. */
module Table {
  import opened Wrappers

  const MinutesPerHour: int := 60
  const MinutesPerDay: int := 1440

  /** One row of `blood_sugar_log`: timestamp, glucose value and the
      `alert_type` column (null for plain readings). */
  datatype Row = Row(timestamp: int, glucose: real, alertType: Option<string>)

  /** `timestamp.hour`: the hour of the day, 0 to 23. */
  function HourOf(t: int): (h: int)
    ensures 0 <= h < 24
  {
    (t % MinutesPerDay) / MinutesPerHour
  }

  /** `timestamp.dt.date`: the day number. */
  function DateOf(t: int): int {
    t / MinutesPerDay
  }

  /** `a` is `b` with some elements dropped and the rest kept in order. */
  predicate IsSubsequence<T(==)>(a: seq<T>, b: seq<T>)
    decreases |b|
  {
    if a == [] then true
    else if b == [] then false
    else if a[|a| - 1] == b[|b| - 1] && IsSubsequence(a[..|a| - 1], b[..|b| - 1]) then true
    else IsSubsequence(a, b[..|b| - 1])
  }

  /** Appending to the longer sequence keeps a subsequence. */
  lemma SubsequenceOfLonger<T>(a: seq<T>, b: seq<T>, x: T)
    requires IsSubsequence(a, b)
    ensures IsSubsequence(a, b + [x])
  {
    var bx := b + [x];
    assert bx[..|bx| - 1] == b;
  }

  /** Every element of a subsequence occurs in the longer sequence. */
  lemma {:induction false} SubsequenceMembers<T>(a: seq<T>, b: seq<T>)
    requires IsSubsequence(a, b)
    ensures forall x :: x in a ==> x in b
    decreases |b|
  {
    if a != [] {
      var b' := b[..|b| - 1];
      assert b == b' + [b[|b| - 1]];
      if a[|a| - 1] == b[|b| - 1] && IsSubsequence(a[..|a| - 1], b') {
        SubsequenceMembers(a[..|a| - 1], b');
        assert a == a[..|a| - 1] + [a[|a| - 1]];
      } else {
        SubsequenceMembers(a, b');
      }
    }
  }

  /** Putting the same element in front of both keeps a subsequence. */
  lemma {:induction false} SubsequenceCons<T>(x: T, a: seq<T>, b: seq<T>)
    requires IsSubsequence(a, b)
    ensures IsSubsequence([x] + a, [x] + b)
    decreases |b|
  {
    var xa, xb := [x] + a, [x] + b;
    if b == [] {
      assert xa[..|xa| - 1] == [] && xb[..|xb| - 1] == [];
    } else {
      var b' := b[..|b| - 1];
      assert xb[..|xb| - 1] == [x] + b';
      if a == [] {
        SubsequenceCons(x, a, b');
      } else {
        var a' := a[..|a| - 1];
        if a[|a| - 1] == b[|b| - 1] && IsSubsequence(a', b') {
          SubsequenceCons(x, a', b');
          assert xa[..|xa| - 1] == [x] + a';
        } else {
          SubsequenceCons(x, a, b');
        }
      }
    }
  }

  /** Putting an element in front of the longer sequence keeps a subsequence. */
  lemma {:induction false} SubsequenceOfCons<T>(x: T, a: seq<T>, b: seq<T>)
    requires IsSubsequence(a, b)
    ensures IsSubsequence(a, [x] + b)
    decreases |b|
  {
    if a != [] {
      var xb := [x] + b;
      var a', b' := a[..|a| - 1], b[..|b| - 1];
      assert xb[..|xb| - 1] == [x] + b';
      if a[|a| - 1] == b[|b| - 1] && IsSubsequence(a', b') {
        SubsequenceOfCons(x, a', b');
      } else {
        SubsequenceOfCons(x, a, b');
      }
    }
  }
}

=== FILE: time_filter.dfy ===
/** The time-window selection of `src/utils.py`.  The user's answers to the
    menu prompt are a finite sequence of inputs; running out of them is the
    `EOFError` that `filter_blood_sugar_data` catches. */
module TimeFilter {
  import opened Wrappers
  import opened Table

  /** One answer to the prompt: an integer, or text `int()` rejects. */
  datatype Input = Entered(n: int) | NotANumber

  /** Days to look back for each accepted menu choice; every other integer
      is rejected and the prompt repeats. */
  function LookBackDays(choice: int): (d: Option<nat>)
    ensures d.Some? <==> 1 <= choice <= 5
    ensures d.Some? ==> 1 <= d.value <= 60
  {
    if choice == 1 then Some(1)
    else if choice == 2 then Some(7)
    else if choice == 3 then Some(14)
    else if choice == 4 then Some(30)
    else if choice == 5 then Some(60)
    else None
  }

  /** The menu: 1 day, 7 days, 14 days, 30 days, 60 days. */
  lemma LookBackTable()
    ensures LookBackDays(1) == Some(1) && LookBackDays(2) == Some(7) && LookBackDays(3) == Some(14)
    ensures LookBackDays(4) == Some(30) && LookBackDays(5) == Some(60)
    ensures LookBackDays(0) == None && LookBackDays(6) == None
  {
  }

  /** Later menu entries look strictly further back. */
  lemma LookBackIncreasing(a: int, b: int)
    requires 1 <= a < b <= 5
    ensures LookBackDays(a).value < LookBackDays(b).value
  {
  }

  predicate Accepted(i: Input) {
    i.Entered? && 1 <= i.n <= 5
  }

  /** `inputs[k]` is the first accepted answer. */
  predicate FirstAccepted(inputs: seq<Input>, k: int) {
    0 <= k < |inputs| && Accepted(inputs[k]) && forall j :: 0 <= j < k ==> !Accepted(inputs[j])
  }

  /** The start of the window for an accepted choice. */
  function StartFor(choice: int, now: int): int
    requires 1 <= choice <= 5
  {
    now - LookBackDays(choice).value * MinutesPerDay
  }

  /** `get_time_filter`: prompt until an accepted choice arrives, then look
      back that many days from `now`.  `None` when the inputs run out first. */
  method GetTimeFilter(inputs: seq<Input>, now: int) returns (start: Option<int>)
    ensures start.None? <==> forall k :: 0 <= k < |inputs| ==> !Accepted(inputs[k])
    ensures start.Some? ==> exists k :: FirstAccepted(inputs, k)
    ensures forall k :: FirstAccepted(inputs, k) ==> start == Some(StartFor(inputs[k].n, now))
    ensures start.Some? ==> now - 60 * MinutesPerDay <= start.value < now
  {
    var k := 0;
    while k < |inputs| && !Accepted(inputs[k])
      invariant 0 <= k <= |inputs|
      invariant forall j :: 0 <= j < k ==> !Accepted(inputs[j])
    {
      k := k + 1;
    }
    if k == |inputs| {
      start := None;
    } else {
      assert FirstAccepted(inputs, k);
      start := Some(StartFor(inputs[k].n, now));
    }
  }

  /** The rows with `start <= timestamp <= end`, in table order; a row that
      occurs several times is kept as often as it occurs. */
  function Window(rows: seq<Row>, start: int, end: int): (w: seq<Row>)
    ensures |w| <= |rows|
    ensures forall r :: r in w <==> r in rows && start <= r.timestamp <= end
    ensures forall r :: multiset(w)[r] == if start <= r.timestamp <= end then multiset(rows)[r] else 0
    ensures IsSubsequence(w, rows)
  {
    if rows == [] then []
    else
      var front := rows[..|rows| - 1];
      var last := rows[|rows| - 1];
      var w := Window(front, start, end);
      assert rows == front + [last];
      var w' := if start <= last.timestamp <= end then w + [last] else w;
      WindowCounts(front, last, w, w', start, end);
      if start <= last.timestamp <= end then
        assert w'[..|w'| - 1] == w;
        w'
      else
        SubsequenceOfLonger(w, front, last);
        w
  }

  /** One step of `Window`: appending `last` to the table appends it to the
      window exactly when it falls inside, so the counts stay in step. */
  lemma WindowCounts(front: seq<Row>, last: Row, w: seq<Row>, w': seq<Row>, start: int, end: int)
    requires forall r :: multiset(w)[r] == if start <= r.timestamp <= end then multiset(front)[r] else 0
    requires w' == if start <= last.timestamp <= end then w + [last] else w
    ensures forall r :: multiset(w')[r] == if start <= r.timestamp <= end then multiset(front + [last])[r] else 0
    ensures forall r :: r in w' <==> r in front + [last] && start <= r.timestamp <= end
  {
    assert multiset(front + [last]) == multiset(front) + multiset{last};
    if start <= last.timestamp <= end {
      assert multiset(w') == multiset(w) + multiset{last};
    }
    forall r
      ensures r in w' <==> r in front + [last] && start <= r.timestamp <= end
    {
      assert r in w' <==> multiset(w')[r] > 0;
      assert r in front + [last] <==> multiset(front + [last])[r] > 0;
    }
  }

  /** The window as a table, or `None` instead of an empty table. */
  function KeepWindow(rows: seq<Row>, start: int, end: int): (r: Option<seq<Row>>)
    ensures r.None? <==> forall x :: x in rows ==> x.timestamp < start || x.timestamp > end
    ensures r.Some? ==> |r.value| > 0 && IsSubsequence(r.value, rows)
    ensures r.Some? ==> forall x :: x in r.value <==> x in rows && start <= x.timestamp <= end
    ensures r.Some? ==> forall x :: multiset(r.value)[x] == if start <= x.timestamp <= end then multiset(rows)[x] else 0
  {
    var w := Window(rows, start, end);
    if |w| == 0 then None
    else
      assert w[0] in w;
      Some(w)
  }

  /** `filter_blood_sugar_data`: the window from the chosen start up to
      `now`, or `None` when no choice was made or nothing falls inside. */
  method FilterBloodSugarData(rows: seq<Row>, inputs: seq<Input>, now: int) returns (r: Option<seq<Row>>)
    ensures (forall k :: 0 <= k < |inputs| ==> !Accepted(inputs[k])) ==> r.None?
    ensures forall k :: FirstAccepted(inputs, k) ==> r == KeepWindow(rows, StartFor(inputs[k].n, now), now)
    ensures r.Some? ==> |r.value| > 0 && IsSubsequence(r.value, rows)
    ensures r.Some? ==> forall x :: x in r.value ==> x in rows && now - 60 * MinutesPerDay <= x.timestamp <= now
    ensures forall x :: (x in rows && now - MinutesPerDay <= x.timestamp <= now
                          && exists k :: 0 <= k < |inputs| && Accepted(inputs[k]))
                        ==> r.Some? && x in r.value
  {
    var start := GetTimeFilter(inputs, now);
    if start.None? {
      return None;
    }
    r := KeepWindow(rows, start.value, now);
  }
}

=== FILE: wrappers.dfy ===
/** Option and Result, the shapes used for Python's `None` returns and raised
    exceptions throughout the model. */
module Wrappers {

  datatype Option<+T> = None | Some(value: T)

  datatype Result<+R, +E> = Ok(value: R) | Err(error: E)
}
